=== FILE: README.md ===
# Book Finder: search request, page state and book display

This project models the logic inside the Book Finder page (`src/App.jsx`),
a React view that searches the Open Library catalogue. It covers four parts:

- **The search request.** `searchBooks` builds its URL from the chosen
  facet (title, author, subject or ISBN), the query as typed, and the
  optional year and language filters. Each value goes through
  `encodeURIComponent`. That function is modelled as the Encode operation of
  ECMA-262, section 19.2.6:
  - UTF-16 code units are read as code points; an unpaired surrogate throws URIError;
  - code points become UTF-8 octets;
  - every octet outside the unreserved set `A-Z a-z 0-9 - _ . ! ~ * ' ( )`
    is written as `%XY` with upper-case hexadecimal digits.

  JavaScript strings are sequences of UTF-16 code units (`Unicode.JsString`),
  so the URIError case is modelled and ends in the search's catch branch.
- **The page state.** The class `App.BookFinder` holds the fields the page
  keeps: the query, the facet, the filters, the books, `loading` and
  `hasSearched`. Its methods are:
  - the form setters;
  - `clearFilters`;
  - `searchBooks`, split at its `await` into BeginSearch and CompleteSearch;
  - the Enter-key handler.

  The response of the network request is an input: the body's `docs`, a body
  without `docs`, or a failure.
- **The cover image address** `getCoverUrl`. A cover id of 0 counts as
  absent, because 0 is falsy.
- **The display projections** of the result card, the detail dialog and the
  result count: at most two authors on a card; the year or "Year unknown";
  the first ten subjects; the first three publishers; the first ISBN; the
  languages; the page count; the outbound link; the plural of "book".

Each operation has a partner it is proved against:
- the URL is read back by a query-string parser (`Search.QueryOf`), which
  gives exactly the intended parameters with the user's values decoded;
- encoding is undone by a decoder, and it equals a layered reference definition;
- each joined display list splits back into the list it shows;
- each number shown parses back to the number it came from;
- the panel conditions are proved mutually exclusive.

Some behaviour follows the code where the code is easy to misread:
- An empty `author_name` array is truthy in JavaScript, so such a card shows
  an empty author line, not "Unknown Author". Only a missing field shows the
  placeholder (`Books.CardAuthorsSpec`).
- The query goes into the URL untrimmed. Trimming only decides whether a
  search happens at all.
- The Enter key runs a search even while another is loading. Only the button
  is disabled during a search.
- The First Published and Pages sections are guarded by the number itself.
  A year or page median of 0 makes the guard evaluate to 0, and React
  prints it, so the dialog shows a stray "0" where the section would be
  (`Books.ModalYear`, `Books.ModalPages`).

Modules, one per concern: `Wrappers` (Option, Result), `Unicode` (UTF-16,
UTF-8), `JsStrings` (`trim`, `toLowerCase`), `Uri` (`encodeURIComponent`
and its inverse), `Text` (`slice`, `join`, `split`, integer text),
`Search` (the URL), `Books` (the display projections) and `App` (the page
state).

## Model

| member | source | states |
|---|---|---|
| `Uri.Encode` | src/App.jsx:26 | a successful encoding holds only unreserved characters and `%` followed by two upper-case hex digits |
| `Uri.EncodeMatchesReference` | src/App.jsx:26 | the per-code-unit encoder equals the layered definition: code points, then UTF-8 octets, then escaping each octet |
| `Uri.DecodeEncode` | src/App.jsx:26 | percent-decoding, UTF-8 decoding and UTF-16 encoding give back exactly the string that was encoded |
| `Uri.EncodeInjective` | src/App.jsx:26 | two different strings never encode to the same text |
| `Uri.EncodeFailsIff` | src/App.jsx:26 | encoding throws URIError exactly when the string holds a lead surrogate without its trail or a trail without its lead |
| `Uri.EncodedHasNoDelimiters` | src/App.jsx:26-44 | an encoded value never contains `&`, `=`, `#` or `+`, so user input cannot add or split parameters |
| `Unicode.CodePointsRoundTrip` | src/App.jsx:26 | re-encoding the code points of a well-formed string as UTF-16 gives the string back |
| `Unicode.Utf16EncodeRoundTrip` | src/App.jsx:26 | every sequence of scalar values is the code-point reading of its UTF-16 form |
| `Unicode.Utf8RoundTrip` | src/App.jsx:26 | UTF-8 decoding of the octets of scalar values gives them back |
| `JsStrings.BlankIffAllWhiteSpace` | src/App.jsx:16 | a query trims to the empty string exactly when every code unit is ECMAScript white space or a line terminator |
| `JsStrings.TrimIsCore` | src/App.jsx:16 | the trimmed text is a contiguous piece of the query, only white space is cut off, and it neither starts nor ends with white space |
| `JsStrings.ToLowerCaseSpec` | src/App.jsx:293 | lower-casing turns each ASCII capital into its small letter, leaves no ASCII capital, keeps every other unit, keeps the length and is idempotent |
| `Search.BuildSearchUrl` | src/App.jsx:22-47 | appending the facet, the filters and the limit step by step gives the search URL, or URIError; a URL it builds reads back as exactly the intended parameters |
| `Search.SearchUrlParams` | src/App.jsx:22-47 | a search URL, read back by the model's query-string reader (split at `&`, then at the first `=`, then percent-decoded), gives the facet with the untrimmed query, then the year only when set, then the language only when set, then `limit=50`, each value decoded to what was typed |
| `Search.SearchParamNames` | src/App.jsx:24-47 | the parameter names are the facet name, `first_publish_year` exactly when the year filter is non-empty, `language` exactly when the language filter is non-empty, and `limit`, in that order |
| `Search.SearchUrlIsJoin` | src/App.jsx:22-47 | a search URL is the endpoint followed by its fields joined with `&` |
| `Search.SearchUrlShape` | src/App.jsx:22-47 | a search URL starts with the endpoint and the facet name followed by `=`, and ends with `&limit=50` |
| `Search.SearchUrlFails` | src/App.jsx:21-47 | building the URL fails exactly when the query, or a filter that is set, holds an unpaired surrogate; an empty filter never fails |
| `Text.SplitJoin` | src/App.jsx:98 | splitting a non-empty comma-joined list gives the list back when no element holds a comma |
| `Text.ParseIntToString` | src/App.jsx:102 | the decimal text of an integer reads back as that integer |
| `Books.CoverUrl` | src/App.jsx:67-72 | a cover address exists exactly when the cover id is present and not 0 |
| `Books.CoverUrlRoundTrip` | src/App.jsx:67-72 | the cover address names the document's cover id; there is none when the id is missing or 0 |
| `Books.CardAuthorsSpec` | src/App.jsx:98 | the card shows at most the first two authors, in order; a missing field shows "Unknown Author"; an empty list shows an empty line |
| `Books.YearLabelSpec` | src/App.jsx:102 | the card's year reads back as the year exactly when it is present and not 0; otherwise it is "Year unknown" |
| `Books.ModalSubtitle` | src/App.jsx:136-138 | the subtitle is shown exactly when it is a non-empty string, and then it is shown as is |
| `Books.ModalAuthors` | src/App.jsx:140-145 | the Authors section is present exactly when the author field is present |
| `Books.ModalAuthorsSpec` | src/App.jsx:145 | the Authors section lists every author, in order |
| `Books.ModalYear` | src/App.jsx:149-154 | the First Published section is rendered exactly when the year is present and not 0; a year of 0 renders the stray text "0" instead, and a missing year renders nothing |
| `Books.ModalYearSpec` | src/App.jsx:149-154 | the text the year guard renders, the section or the stray "0", reads back as the year |
| `Books.ModalSubjects` | src/App.jsx:163-167 | the Subjects section is present exactly when there is a subject; it shows a prefix of the list holding exactly min(10, n) of the n subjects |
| `Books.ModalPublishers` | src/App.jsx:176-179 | the Publishers section is present exactly when there is a publisher |
| `Books.ModalPublishersSpec` | src/App.jsx:179 | the Publishers section splits back into a prefix of the list holding exactly min(3, n) of the n publishers |
| `Books.ModalIsbn` | src/App.jsx:183-186 | the ISBN section is present exactly when there is an ISBN, and shows the first one |
| `Books.ModalLanguages` | src/App.jsx:190-193 | the Languages section is present exactly when there is a language |
| `Books.ModalLanguagesSpec` | src/App.jsx:193 | the Languages section lists every language, in order |
| `Books.ModalPages` | src/App.jsx:197-200 | the Pages section is rendered exactly when the page median is present and not 0; a median of 0 renders the stray text "0" instead, and a missing median renders nothing |
| `Books.ModalPagesSpec` | src/App.jsx:197-200 | a median of 0 renders the bare text "0"; the Pages section is the page median followed by " pages", and the number reads back |
| `Books.BookLinkSpec` | src/App.jsx:207 | the outbound link is the Open Library site root followed by the document key |
| `Books.CountLabelSpec` | src/App.jsx:338 | the count line ends in "books" exactly when the count is not 1, and the number in it reads back as the count |
| `App.SearchDisabledSpec` | src/App.jsx:302 | the search button is enabled exactly when nothing is loading and the query has a code unit that is not white space |
| `App.PanelsSpec` | src/App.jsx:321-347 | at most one panel shows: the spinner while loading; once a search has settled, no-results for an empty list and the grid otherwise; nothing before the first search |
| `App.BookFinder.constructor` | src/App.jsx:5-13 | the page starts with an empty query and filters, the title facet, no books, not loading and not searched |
| `App.BookFinder.SetSearchQuery` | src/App.jsx:252 | the query becomes the typed text and nothing else changes, so the page invariant is kept |
| `App.BookFinder.SetSearchType` | src/App.jsx:239 | the facet becomes the chosen one and nothing else changes, so the page invariant is kept |
| `App.BookFinder.SetYearFilter` | src/App.jsx:284 | the year filter becomes the typed text and nothing else changes, so the page invariant is kept |
| `App.BookFinder.SetLanguageFilter` | src/App.jsx:293 | the language filter becomes the lower-cased typed text, with no ASCII capital left, and nothing else changes, so the page invariant is kept |
| `App.BookFinder.ClearFilters` | src/App.jsx:74-77 | both filters become empty, the clear-filters button (src/App.jsx:267) is no longer shown, and nothing else changes, so the page invariant is kept |
| `App.BookFinder.BeginSearch` | src/App.jsx:15-47 | a blank query changes nothing and sends nothing; otherwise the page is searched and loading, and the request is the search URL; an encoding error leaves no books and not loading |
| `App.BookFinder.CompleteSearch` | src/App.jsx:49-58 | the books become the response's `docs`, or `[]` when there are none or the request failed; loading ends; the panel is no-results or the grid |
| `App.BookFinder.SearchBooks` | src/App.jsx:15-58 | a blank query changes nothing; otherwise the page ends searched and not loading, with the search button enabled again, and with the response's documents, or none after any failure, and shows exactly one of no-results and the grid |
| `App.BookFinder.HandleKeyPress` | src/App.jsx:61-65 | Enter on a non-blank query runs the search and leaves the page settled, with the search button enabled again, with the response's documents and exactly one of no-results and the grid; Enter on a blank query and any other key change nothing |

## Left out

- The network request and the JSON parse (src/App.jsx:49-50) are not modelled. Their outcome is the input `App.FetchResult`.
- `console.error` (src/App.jsx:54) is not modelled; it only logs.
- The rating (src/App.jsx:104-109) is not modelled. It is floating-point formatting with `toFixed`.
- Markup, CSS classes, icons, alt text and titles are not modelled.
- The dialog and filter-panel toggles (`selectedBook`, `showFilters`), `stopPropagation`, the React list keys and the input placeholder are not modelled. They are user-interface plumbing with no effect on the searched data.
- React's re-rendering and the batching of state updates are not modelled. Each method shows the state once its synchronous run ends.
- Interleaved searches are not modelled. Each response is taken to arrive before the next search starts, so a slow response cannot overwrite a newer one here.
- App.BookFinder.CompleteSearch: requires a search in progress (`loading`). A response only arrives for a request that was sent.
- Numbers are integers. Fractional values, and the exponent form JavaScript prints for magnitudes of 10^21 and above, are not modelled (`Text.IntToString`).
- JsStrings.ToLowerCaseSpec: states the mapping of `JsStrings.ToLowerCase` for the ASCII capitals only, because only those are mapped. The full Unicode case mapping of `toLowerCase` is not modelled.
- Books.CardAuthorsSpec: the split-back property is stated for names without a comma. A name holding ", " cannot be told apart in the joined text. The same holds for `Books.ModalAuthorsSpec`, `Books.ModalPublishersSpec` and `Books.ModalLanguagesSpec`.
- Search.SearchUrlParams: the reading-back parser is this model's own (split at `&`, then at the first `=`, then percent-decode). The server's parser is not part of this model.
- The Open Library response is modelled only through the optional fields the view reads.

=== FILE: app.dfy ===
/**
  The state of the Book Finder page (src/App.jsx:4-13) and the operations
  that change it: the form setters, `clearFilters`, `searchBooks` and the
  Enter-key handler, together with the conditions that enable the search
  button, show the clear-filters button and choose the result panel.

  `searchBooks` is asynchronous: everything up to `await fetch(url)` runs at
  once, the rest when the response arrives. The model splits it there into
  BeginSearch (the guard, the two flags and the URL, which may throw into
  the catch branch) and CompleteSearch (storing the documents and leaving the
  loading state), with SearchBooks running the two in sequence. The response
  is an input: the `docs` array, a body without `docs`, or a failure of the
  fetch or of the JSON parse.
*/
module App {
  import opened Wrappers
  import opened Unicode
  import opened JsStrings
  import opened Search
  import opened Books

  /** Why `await fetch(url)` or `await response.json()` threw. */
  datatype FetchError = NetworkError | MalformedBody

  /** What the request produced: the body's `docs` when it has them, or the failure. */
  type FetchResult = Result<Option<seq<Book>>, FetchError>

  /** The list a finished request stores: `data.docs || []`, or `[]` from the catch branch. */
  function SettledBooks(fetched: FetchResult): seq<Book>
  {
    match fetched
    case Ok(Some(docs)) => docs
    case Ok(None) => []
    case Err(_) => []
  }

  // ---------------------------------------------------------------- what the page shows

  /** `disabled={loading || !searchQuery.trim()}`. */
  predicate SearchDisabled(loading: bool, query: JsString)
  {
    loading || IsBlank(query)
  }

  /** The search button is enabled exactly when no search is loading and the query has a non-white-space unit. */
  lemma SearchDisabledSpec(loading: bool, query: JsString)
    ensures !SearchDisabled(loading, query) <==> !loading && exists i :: 0 <= i < |query| && !IsWhiteSpace(query[i])
  {
    BlankIffAllWhiteSpace(query);
  }

  /** `(yearFilter || languageFilter)`: the clear-filters button is shown. */
  predicate ClearFiltersShown(year: JsString, lang: JsString)
  {
    year != [] || lang != []
  }

  /** The three result panels below the form. */
  datatype Panel = Spinner | NoResults | Grid

  /** The panels whose conditions hold (src/App.jsx:321, 327, 334). */
  function Panels(loading: bool, hasSearched: bool, count: nat): set<Panel>
  {
    (if loading then {Spinner} else {})
    + (if !loading && hasSearched && count == 0 then {NoResults} else {})
    + (if !loading && count > 0 then {Grid} else {})
  }

  /**
    At most one panel is shown. While loading it is the spinner; once a search
    has settled it is the no-results panel when the list is empty and the grid
    otherwise; before the first search nothing is shown.
  */
  lemma PanelsSpec(loading: bool, hasSearched: bool, count: nat)
    ensures |Panels(loading, hasSearched, count)| <= 1
    ensures loading ==> Panels(loading, hasSearched, count) == {Spinner}
    ensures !loading && hasSearched ==> Panels(loading, hasSearched, count) == if count == 0 then {NoResults} else {Grid}
    ensures !loading && !hasSearched && count == 0 ==> Panels(loading, hasSearched, count) == {}
  {
  }

  // ---------------------------------------------------------------- the page state

  class BookFinder {
    var searchQuery: JsString
    var searchType: SearchType
    var books: seq<Book>
    var loading: bool
    var yearFilter: JsString
    var languageFilter: JsString
    var hasSearched: bool

    /** A search is loading only after one has started, and there are no books before the first search. */
    predicate Valid()
      reads this
    {
      (loading ==> hasSearched) && (!hasSearched ==> books == [])
    }

    /** The initial `useState` values. */
    constructor()
      ensures searchQuery == [] && searchType == Title && books == [] && !loading
      ensures yearFilter == [] && languageFilter == [] && !hasSearched
      ensures Valid()
    {
      searchQuery := [];
      searchType := Title;
      books := [];
      loading := false;
      yearFilter := [];
      languageFilter := [];
      hasSearched := false;
    }

    predicate SearchButtonDisabled()
      reads this
    {
      SearchDisabled(loading, searchQuery)
    }

    predicate ClearButtonShown()
      reads this
    {
      ClearFiltersShown(yearFilter, languageFilter)
    }

    function ShownPanels(): set<Panel>
      reads this
    {
      Panels(loading, hasSearched, |books|)
    }

    /** The search input's onChange. */
    method SetSearchQuery(q: JsString)
      requires Valid()
      modifies this
      ensures Valid()
      ensures searchQuery == q
      ensures searchType == old(searchType) && yearFilter == old(yearFilter) && languageFilter == old(languageFilter)
      ensures books == old(books) && loading == old(loading) && hasSearched == old(hasSearched)
    {
      searchQuery := q;
    }

    /** A search-type button's onClick. */
    method SetSearchType(t: SearchType)
      requires Valid()
      modifies this
      ensures Valid()
      ensures searchType == t
      ensures searchQuery == old(searchQuery) && yearFilter == old(yearFilter) && languageFilter == old(languageFilter)
      ensures books == old(books) && loading == old(loading) && hasSearched == old(hasSearched)
    {
      searchType := t;
    }

    /** The year input's onChange. */
    method SetYearFilter(year: JsString)
      requires Valid()
      modifies this
      ensures Valid()
      ensures yearFilter == year
      ensures searchQuery == old(searchQuery) && searchType == old(searchType) && languageFilter == old(languageFilter)
      ensures books == old(books) && loading == old(loading) && hasSearched == old(hasSearched)
    {
      yearFilter := year;
    }

    /** The language input's onChange, which lower-cases what was typed. */
    method SetLanguageFilter(lang: JsString)
      requires Valid()
      modifies this
      ensures Valid()
      ensures languageFilter == ToLowerCase(lang)
      ensures forall i :: 0 <= i < |languageFilter| ==> !(0x41 <= languageFilter[i] <= 0x5A)
      ensures searchQuery == old(searchQuery) && searchType == old(searchType) && yearFilter == old(yearFilter)
      ensures books == old(books) && loading == old(loading) && hasSearched == old(hasSearched)
    {
      languageFilter := ToLowerCase(lang);
      ToLowerCaseSpec(lang);
    }

    /** `clearFilters`: both filters become empty, so the clear button disappears; nothing else changes. */
    method ClearFilters()
      requires Valid()
      modifies this
      ensures Valid()
      ensures yearFilter == [] && languageFilter == []
      ensures !ClearButtonShown()
      ensures searchQuery == old(searchQuery) && searchType == old(searchType)
      ensures books == old(books) && loading == old(loading) && hasSearched == old(hasSearched)
    {
      yearFilter := [];
      languageFilter := [];
    }

    /**
      The synchronous part of `searchBooks`. A blank query changes nothing and
      sends nothing. Otherwise the search is marked as started and loading and
      the URL is built; when `encodeURIComponent` throws, the catch and finally
      branches run at once, leaving no books and not loading.
    */
    method BeginSearch() returns (request: Option<string>)
      requires Valid()
      modifies this
      ensures Valid()
      ensures searchQuery == old(searchQuery) && searchType == old(searchType)
      ensures yearFilter == old(yearFilter) && languageFilter == old(languageFilter)
      ensures IsBlank(searchQuery) ==>
        request.None? && books == old(books) && loading == old(loading) && hasSearched == old(hasSearched)
      ensures !IsBlank(searchQuery) ==> hasSearched
      ensures !IsBlank(searchQuery) && SearchUrl(searchType, searchQuery, yearFilter, languageFilter).Ok? ==>
        request == Some(SearchUrl(searchType, searchQuery, yearFilter, languageFilter).value) && loading && books == old(books)
      ensures !IsBlank(searchQuery) && SearchUrl(searchType, searchQuery, yearFilter, languageFilter).Err? ==>
        request.None? && !loading && books == []
      ensures request.Some? ==> QueryOf(request.value) == Some(SearchParams(searchType, searchQuery, yearFilter, languageFilter))
    {
      if IsBlank(searchQuery) {
        return None;
      }
      loading := true;
      hasSearched := true;
      var url := BuildSearchUrl(searchType, searchQuery, yearFilter, languageFilter);
      if url.Ok? {
        request := Some(url.value);
      } else {
        books := [];
        loading := false;
        request := None;
      }
    }

    /** The part of `searchBooks` after the response: store the documents or `[]`, then stop loading. */
    method CompleteSearch(fetched: FetchResult)
      requires Valid() && loading
      modifies this
      ensures Valid()
      ensures books == SettledBooks(fetched) && !loading && hasSearched
      ensures ShownPanels() == if books == [] then {NoResults} else {Grid}
      ensures searchQuery == old(searchQuery) && searchType == old(searchType)
      ensures yearFilter == old(yearFilter) && languageFilter == old(languageFilter)
    {
      match fetched {
        case Ok(Some(docs)) =>
          books := docs;
        case Ok(None) =>
          books := [];
        case Err(_) =>
          books := [];
      }
      loading := false;
      PanelsSpec(loading, hasSearched, |books|);
    }

    /**
      `searchBooks` with the response it receives. After a non-blank search the
      page is settled: searched, not loading, showing the documents or the
      no-results panel.
    */
    method SearchBooks(fetched: FetchResult)
      requires Valid()
      modifies this
      ensures Valid()
      ensures searchQuery == old(searchQuery) && searchType == old(searchType)
      ensures yearFilter == old(yearFilter) && languageFilter == old(languageFilter)
      ensures IsBlank(searchQuery) ==> books == old(books) && loading == old(loading) && hasSearched == old(hasSearched)
      ensures !IsBlank(searchQuery) ==> hasSearched && !loading && !SearchButtonDisabled()
      ensures !IsBlank(searchQuery) ==>
        books == if SearchUrl(searchType, searchQuery, yearFilter, languageFilter).Ok? then SettledBooks(fetched) else []
      ensures !IsBlank(searchQuery) ==> ShownPanels() == if books == [] then {NoResults} else {Grid}
    {
      var request := BeginSearch();
      if request.Some? {
        CompleteSearch(fetched);
      } else if !IsBlank(searchQuery) {
        PanelsSpec(loading, hasSearched, |books|);
      }
    }

    /**
      `handleKeyPress`: Enter runs the search (even while one is loading), which
      does nothing for a blank query; any other key does nothing.
    */
    method HandleKeyPress(key: string, fetched: FetchResult)
      requires Valid()
      modifies this
      ensures Valid()
      ensures key != "Enter" || IsBlank(searchQuery) ==>
        books == old(books) && loading == old(loading) && hasSearched == old(hasSearched)
      ensures key == "Enter" && !IsBlank(searchQuery) ==> hasSearched && !loading && !SearchButtonDisabled()
      ensures key == "Enter" && !IsBlank(searchQuery) ==>
        books == if SearchUrl(searchType, searchQuery, yearFilter, languageFilter).Ok? then SettledBooks(fetched) else []
      ensures key == "Enter" && !IsBlank(searchQuery) ==> ShownPanels() == if books == [] then {NoResults} else {Grid}
      ensures searchQuery == old(searchQuery) && searchType == old(searchType)
      ensures yearFilter == old(yearFilter) && languageFilter == old(languageFilter)
    {
      if key == "Enter" {
        SearchBooks(fetched);
      }
    }
  }
}

=== FILE: books.dfy ===
/**
  What the result grid and the detail dialog show of one Open Library
  search document (src/App.jsx:67-72, 79-218): the cover image address,
  the author line, the year, the subject, publisher, ISBN, language and
  page sections, the outbound link, and the result count line.

  The JSON fields the view reads are optional; a field that the document
  lacks is None. JavaScript truthiness decides whether a piece of text is
  shown: a number guarding its own section shows it when present and not 0,
  and a 0 leaves the stray text "0" in its place; an array is "there" when
  present even if empty; and the sections guarded by `length > 0` need at
  least one element.
*/
module Books {
  import opened Wrappers
  import opened Text

  /** The fields of an Open Library search document that the view reads. */
  datatype Book = Book(
    key: string,
    title: string,
    subtitle: Option<string>,
    authorName: Option<seq<string>>,
    firstPublishYear: Option<int>,
    coverId: Option<int>,
    subject: Option<seq<string>>,
    publisher: Option<seq<string>>,
    isbn: Option<seq<string>>,
    language: Option<seq<string>>,
    pagesMedian: Option<int>)

  /** A numeric field in a condition: present and not 0 (0 is falsy). */
  predicate NumberTruthy(n: Option<int>)
  {
    n.Some? && n.value != 0
  }

  /** `xs && xs.length > 0`: an array field with at least one element. */
  predicate NonEmptyList(xs: Option<seq<string>>)
  {
    xs.Some? && |xs.value| > 0
  }

  // ---------------------------------------------------------------- cover image

  const CoverPrefix: string := "https://covers.openlibrary.org/b/id/"
  const CoverSuffix: string := "-M.jpg"

  /** `getCoverUrl`: the medium cover image of the document's cover id, or null. */
  function CoverUrl(b: Book): (r: Option<string>)
    ensures r.Some? <==> NumberTruthy(b.coverId)
  {
    if NumberTruthy(b.coverId) then Some(CoverPrefix + IntToString(b.coverId.value) + CoverSuffix)
    else None
  }

  /** The cover id a cover image address names, if it is one. */
  function CoverIdOf(url: string): Option<int>
  {
    match Unframe(url, CoverPrefix, CoverSuffix)
    case None => None
    case Some(id) => ParseInt(id)
  }

  /** A cover address is built exactly for a non-zero id, and names that id. */
  lemma CoverUrlRoundTrip(b: Book)
    ensures CoverUrl(b).Some? ==> CoverIdOf(CoverUrl(b).value) == b.coverId
    ensures CoverUrl(b).None? <==> b.coverId.None? || b.coverId == Some(0)
  {
    if NumberTruthy(b.coverId) {
      UnframeFrame(CoverPrefix, IntToString(b.coverId.value), CoverSuffix);
      ParseIntToString(b.coverId.value);
    }
  }

  // ---------------------------------------------------------------- the card

  const Separator: string := ", "
  const UnknownAuthor: string := "Unknown Author"
  const YearUnknown: string := "Year unknown"

  /** The author line of a card: the first two authors, or the placeholder when the field is missing. */
  function CardAuthors(b: Book): string
  {
    if b.authorName.Some? then Join(Take(b.authorName.value, 2), Separator) else UnknownAuthor
  }

  /**
    The author line names at most the first two authors, in order, and can be
    split back into them when no name holds a comma. A missing field shows the
    placeholder; an empty list (truthy in JavaScript) shows an empty line.
  */
  lemma CardAuthorsSpec(b: Book)
    ensures b.authorName.None? ==> CardAuthors(b) == UnknownAuthor
    ensures b.authorName == Some([]) ==> CardAuthors(b) == []
    ensures b.authorName.Some? && b.authorName.value != [] && FreeOf(b.authorName.value, ',')
      ==> SplitBy(CardAuthors(b), Separator) == Take(b.authorName.value, 2)
  {
    if b.authorName.Some? && b.authorName.value != [] && FreeOf(b.authorName.value, ',') {
      TakeFreeOf(b.authorName.value, 2, ',');
      SplitJoin(Take(b.authorName.value, 2), Separator);
    }
  }

  lemma TakeFreeOf(xs: seq<string>, n: nat, c: char)
    requires FreeOf(xs, c)
    ensures FreeOf(Take(xs, n), c)
  {
    var t := Take(xs, n);
    forall i | 0 <= i < |t| ensures c !in t[i] {
      assert t[i] == xs[i];
    }
  }

  /** The year of a card: the first publication year, or the placeholder when it is missing or 0. */
  function YearLabel(b: Book): string
  {
    if NumberTruthy(b.firstPublishYear) then IntToString(b.firstPublishYear.value) else YearUnknown
  }

  /** The year label reads back as the year exactly when the year is shown; the placeholder reads as no number. */
  lemma YearLabelSpec(b: Book)
    ensures ParseInt(YearLabel(b)) == if NumberTruthy(b.firstPublishYear) then Some(b.firstPublishYear.value) else None
    ensures YearLabel(b) == YearUnknown <==> !NumberTruthy(b.firstPublishYear)
  {
    if NumberTruthy(b.firstPublishYear) {
      ParseIntToString(b.firstPublishYear.value);
      var r := IntToString(b.firstPublishYear.value);
      assert r[0] == '-' || IsDigit(r[0]);
      assert YearUnknown[0] == 'Y';
    } else {
      assert YearUnknown[0] == 'Y' && !IsDigit(YearUnknown[0]);
    }
  }

  // ---------------------------------------------------------------- the dialog

  /** The subtitle line, shown when the subtitle is a non-empty string. */
  function ModalSubtitle(b: Book): (r: Option<string>)
    ensures r.Some? <==> b.subtitle.Some? && b.subtitle.value != []
    ensures r.Some? ==> r == b.subtitle
  {
    if b.subtitle.Some? && b.subtitle.value != [] then b.subtitle else None
  }

  /** The Authors section: every author, shown whenever the field is present. */
  function ModalAuthors(b: Book): (r: Option<string>)
    ensures r.Some? <==> b.authorName.Some?
  {
    if b.authorName.Some? then Some(Join(b.authorName.value, Separator)) else None
  }

  /** The Authors section lists all authors, not just the first two. */
  lemma ModalAuthorsSpec(b: Book)
    ensures b.authorName.Some? && b.authorName.value != [] && FreeOf(b.authorName.value, ',')
      ==> SplitBy(ModalAuthors(b).value, Separator) == b.authorName.value
  {
    if b.authorName.Some? && b.authorName.value != [] && FreeOf(b.authorName.value, ',') {
      SplitJoin(b.authorName.value, Separator);
    }
  }

  /**
    What a guard `{n && (<section/>)}` renders. A missing number renders
    nothing; a 0 makes the guard evaluate to the number 0, which React prints
    as the stray text "0"; any other number renders the section.
  */
  datatype Rendered = Nothing | Stray(text: string) | Section(text: string)

  /** The First Published section, guarded by the year itself (src/App.jsx:149). */
  function ModalYear(b: Book): (r: Rendered)
    ensures r.Section? <==> NumberTruthy(b.firstPublishYear)
    ensures r.Nothing? <==> b.firstPublishYear.None?
    ensures r.Stray? <==> b.firstPublishYear == Some(0)
  {
    match b.firstPublishYear
    case None => Nothing
    case Some(y) => if y == 0 then Stray(IntToString(0)) else Section(IntToString(y))
  }

  /** Whatever text the year guard renders, stray or in the section, reads back as the year. */
  lemma ModalYearSpec(b: Book)
    ensures ModalYear(b).Stray? ==> ModalYear(b).text == "0"
    ensures !ModalYear(b).Nothing? ==> ParseInt(ModalYear(b).text) == b.firstPublishYear
  {
    if b.firstPublishYear.Some? {
      ParseIntToString(b.firstPublishYear.value);
    }
  }

  /** The Subjects section: the first ten subjects, when there is at least one. */
  function ModalSubjects(b: Book): (r: Option<seq<string>>)
    ensures r.Some? <==> NonEmptyList(b.subject)
    ensures r.Some? ==> r.value <= b.subject.value
    ensures r.Some? ==> |r.value| == if |b.subject.value| < 10 then |b.subject.value| else 10
  {
    if NonEmptyList(b.subject) then Some(Take(b.subject.value, 10)) else None
  }

  /** The Publishers section: the first three publishers joined, when there is at least one. */
  function ModalPublishers(b: Book): (r: Option<string>)
    ensures r.Some? <==> NonEmptyList(b.publisher)
  {
    if NonEmptyList(b.publisher) then Some(Join(Take(b.publisher.value, 3), Separator)) else None
  }

  /** The Publishers section names exactly the first min(3, n) publishers, in order. */
  lemma ModalPublishersSpec(b: Book)
    ensures NonEmptyList(b.publisher) && FreeOf(b.publisher.value, ',')
      ==> var shown := SplitBy(ModalPublishers(b).value, Separator);
          shown <= b.publisher.value && |shown| == if |b.publisher.value| < 3 then |b.publisher.value| else 3
  {
    if NonEmptyList(b.publisher) && FreeOf(b.publisher.value, ',') {
      TakeFreeOf(b.publisher.value, 3, ',');
      SplitJoin(Take(b.publisher.value, 3), Separator);
    }
  }

  /** The ISBN section: only the first ISBN, when there is at least one. */
  function ModalIsbn(b: Book): (r: Option<string>)
    ensures r.Some? <==> NonEmptyList(b.isbn)
    ensures r.Some? ==> r.value in b.isbn.value && b.isbn.value[0] == r.value
  {
    if NonEmptyList(b.isbn) then Some(b.isbn.value[0]) else None
  }

  /** The Languages section: every language code, when there is at least one. */
  function ModalLanguages(b: Book): (r: Option<string>)
    ensures r.Some? <==> NonEmptyList(b.language)
  {
    if NonEmptyList(b.language) then Some(Join(b.language.value, Separator)) else None
  }

  lemma ModalLanguagesSpec(b: Book)
    ensures NonEmptyList(b.language) && FreeOf(b.language.value, ',')
      ==> SplitBy(ModalLanguages(b).value, Separator) == b.language.value
  {
    if NonEmptyList(b.language) && FreeOf(b.language.value, ',') {
      SplitJoin(b.language.value, Separator);
    }
  }

  const PagesSuffix: string := " pages"

  /** The Pages section `<median> pages`, guarded by the median itself (src/App.jsx:197). */
  function ModalPages(b: Book): (r: Rendered)
    ensures r.Section? <==> NumberTruthy(b.pagesMedian)
    ensures r.Nothing? <==> b.pagesMedian.None?
    ensures r.Stray? <==> b.pagesMedian == Some(0)
  {
    match b.pagesMedian
    case None => Nothing
    case Some(n) => if n == 0 then Stray(IntToString(0)) else Section(IntToString(n) + PagesSuffix)
  }

  /** A median of 0 shows as the bare text "0"; the section reads back as the median followed by " pages". */
  lemma ModalPagesSpec(b: Book)
    ensures ModalPages(b).Stray? ==> ModalPages(b).text == "0"
    ensures ModalPages(b).Section? ==>
      match Unframe(ModalPages(b).text, [], PagesSuffix)
      case None => false
      case Some(n) => ParseInt(n) == b.pagesMedian
  {
    if NumberTruthy(b.pagesMedian) {
      var n := IntToString(b.pagesMedian.value);
      assert [] + n + PagesSuffix == n + PagesSuffix;
      UnframeFrame([], n, PagesSuffix);
      ParseIntToString(b.pagesMedian.value);
    }
  }

  const SiteRoot: string := "https://openlibrary.org"

  /** The "View on Open Library" link: the site root followed by the document key. */
  function BookLink(b: Book): string
  {
    SiteRoot + b.key
  }

  /** The link always points into the site and names the document's own key. */
  lemma BookLinkSpec(b: Book)
    ensures Unframe(BookLink(b), SiteRoot, []) == Some(b.key)
  {
    assert BookLink(b) == SiteRoot + b.key + [];
    UnframeFrame(SiteRoot, b.key, []);
  }

  // ---------------------------------------------------------------- the result count

  const FoundPrefix: string := "Found "
  const BookWord: string := " book"

  /** `Found <n> book`, with an `s` unless the count is 1. */
  function CountLabel(n: nat): string
  {
    FoundPrefix + NatToString(n) + BookWord + (if n != 1 then "s" else "")
  }

  /** The count line ends in "books" exactly when the count is not 1, and reads back as the count. */
  lemma CountLabelSpec(n: nat)
    ensures var r := CountLabel(n);
      (r[|r| - 1] == 's') <==> (n != 1)
    ensures var suffix := if n != 1 then BookWord + "s" else BookWord;
      match Unframe(CountLabel(n), FoundPrefix, suffix)
      case None => false
      case Some(digits) => AllDigits(digits) && DigitsValue(digits) == n
  {
    var suffix := if n != 1 then BookWord + "s" else BookWord;
    var digits := NatToString(n);
    assert CountLabel(n) == FoundPrefix + digits + suffix;
    UnframeFrame(FoundPrefix, digits, suffix);
    NatToStringValue(n);
  }
}

=== FILE: jsstring.dfy ===
/**
  The `String.prototype` operations the search form applies to what the
  user types: `trim` (the blank-query guard) and `toLowerCase` (the
  language filter).
*/
module JsStrings {
  import opened Unicode

  /**
    WhiteSpace and LineTerminator of ECMA-262 (sections 12.2 and 12.3):
    TAB, VT, FF, ZWNBSP, the Zs space separators, LF, CR, LS and PS.
    All of them are single BMP code units.
  */
  predicate IsWhiteSpace(u: CodeUnit)
  {
    u == 0x09 || u == 0x0A || u == 0x0B || u == 0x0C || u == 0x0D || u == 0x20
    || u == 0xA0 || u == 0x1680 || (0x2000 <= u <= 0x200A) || u == 0x2028 || u == 0x2029
    || u == 0x202F || u == 0x205F || u == 0x3000 || u == 0xFEFF
  }

  predicate AllWhiteSpace(s: JsString) { forall i :: 0 <= i < |s| ==> IsWhiteSpace(s[i]) }

  /** The string without its leading white space: the suffix after the longest white-space prefix. */
  function TrimStart(s: JsString): (r: JsString)
    ensures |r| <= |s| && r == s[|s| - |r|..]
    ensures AllWhiteSpace(s[..|s| - |r|])
    ensures r != [] ==> !IsWhiteSpace(r[0])
    decreases |s|
  {
    if s != [] && IsWhiteSpace(s[0]) then
      var r := TrimStart(s[1..]);
      assert s[..|s| - |r|] == [s[0]] + s[1..][..|s| - 1 - |r|];
      r
    else s
  }

  /** The string without its trailing white space: the prefix before the longest white-space suffix. */
  function TrimEnd(s: JsString): (r: JsString)
    ensures |r| <= |s| && r == s[..|r|]
    ensures AllWhiteSpace(s[|r|..])
    ensures r != [] ==> !IsWhiteSpace(r[|r| - 1])
    decreases |s|
  {
    if s != [] && IsWhiteSpace(s[|s| - 1]) then
      var r := TrimEnd(s[..|s| - 1]);
      assert s[|r|..] == s[..|s| - 1][|r|..] + [s[|s| - 1]];
      r
    else s
  }

  /** `String.prototype.trim` (TrimString with where = start+end). */
  function Trim(s: JsString): JsString
  {
    TrimEnd(TrimStart(s))
  }

  /** `!s.trim()`: the trimmed string is empty, hence falsy. */
  predicate IsBlank(s: JsString)
  {
    Trim(s) == []
  }

  /** A string trims to nothing exactly when every one of its code units is white space. */
  lemma BlankIffAllWhiteSpace(s: JsString)
    ensures IsBlank(s) <==> AllWhiteSpace(s)
  {
    var t := TrimStart(s);
    if Trim(s) == [] {
      assert s == s[..|s| - |t|] + t;
      assert AllWhiteSpace(t[0..]);
    }
  }

  /**
    The trimmed string is a contiguous piece of the original that neither
    starts nor ends with white space, and everything cut off is white space.
  */
  lemma TrimIsCore(s: JsString)
    ensures exists i, j :: (0 <= i <= j <= |s| && Trim(s) == s[i..j]
                              && AllWhiteSpace(s[..i]) && AllWhiteSpace(s[j..]))
    ensures Trim(s) != [] ==> !IsWhiteSpace(Trim(s)[0]) && !IsWhiteSpace(Trim(s)[|Trim(s)| - 1])
  {
    var t := TrimStart(s);
    var r := TrimEnd(t);
    CutBothEnds(s, t, r);
    if r != [] {
      assert r[0] == t[0];
    }
  }

  /** A prefix cut from a suffix is a slice, with white space cut off on both sides. */
  lemma CutBothEnds(s: JsString, t: JsString, r: JsString)
    requires |t| <= |s| && t == s[|s| - |t|..] && AllWhiteSpace(s[..|s| - |t|])
    requires |r| <= |t| && r == t[..|r|] && AllWhiteSpace(t[|r|..])
    ensures exists i, j :: (0 <= i <= j <= |s| && r == s[i..j]
                              && AllWhiteSpace(s[..i]) && AllWhiteSpace(s[j..]))
  {
    var i := |s| - |t|;
    var j := i + |r|;
    assert s[j..] == t[|r|..];
    assert r == s[i..j];
  }

  /** The ASCII case mapping of one code unit. */
  function ToLowerUnit(u: CodeUnit): CodeUnit
  {
    if 0x41 <= u <= 0x5A then u + 0x20 else u
  }

  /** `String.prototype.toLowerCase`, restricted to the ASCII letters. */
  function ToLowerCase(s: JsString): (r: JsString)
    ensures |r| == |s|
  {
    seq(|s|, i requires 0 <= i < |s| => ToLowerUnit(s[i]))
  }

  /**
    Lower-casing turns each ASCII capital into its small letter, leaves no
    ASCII capital, keeps every other unit, and is idempotent.
  */
  lemma ToLowerCaseSpec(s: JsString)
    ensures forall i :: 0 <= i < |s| && 0x41 <= s[i] <= 0x5A ==> ToLowerCase(s)[i] == s[i] + 0x20
    ensures forall i :: 0 <= i < |s| ==> !(0x41 <= ToLowerCase(s)[i] <= 0x5A)
    ensures forall i :: 0 <= i < |s| && !(0x41 <= s[i] <= 0x5A) ==> ToLowerCase(s)[i] == s[i]
    ensures ToLowerCase(ToLowerCase(s)) == ToLowerCase(s)
    ensures ToLowerCase(s) == [] <==> s == []
  {
  }

  /** The code units of an ASCII literal. */
  function AsciiUnits(s: string): (r: JsString)
    requires forall i :: 0 <= i < |s| ==> s[i] as int < 0x80
    ensures |r| == |s| && forall i :: 0 <= i < |s| ==> r[i] == s[i] as int
  {
    seq(|s|, i requires 0 <= i < |s| => s[i] as int)
  }
}

=== FILE: search.dfy ===
/**
  The Open Library search request that `searchBooks` builds
  (src/App.jsx:22-47): a fixed endpoint, one facet parameter carrying the
  query, the optional year and language filters, and a fixed result limit.
  Every user value goes through `encodeURIComponent`.
*/
module Search {
  import opened Wrappers
  import opened Unicode
  import opened JsStrings
  import opened Uri
  import opened Text

  /** The four search facets offered by the form (src/App.jsx:236). */
  datatype SearchType = Title | Author | Subject | Isbn

  /** The query parameter of a facet: the same word as the facet's button label. */
  function FacetName(t: SearchType): string
  {
    match t
    case Title => "title"
    case Author => "author"
    case Subject => "subject"
    case Isbn => "isbn"
  }

  const Endpoint: string := "https://openlibrary.org/search.json?"

  /** `&first_publish_year=<year>` when the year filter is non-empty, else nothing. */
  function YearPart(year: JsString): Result<string, UriError>
  {
    if year == [] then Ok([])
    else
      match Encode(year)
      case Err(e) => Err(e)
      case Ok(y) => Ok("&first_publish_year=" + y)
  }

  /** `&language=<lang>` when the language filter is non-empty, else nothing. */
  function LanguagePart(lang: JsString): Result<string, UriError>
  {
    if lang == [] then Ok([])
    else
      match Encode(lang)
      case Err(e) => Err(e)
      case Ok(l) => Ok("&language=" + l)
  }

  /**
    The URL `searchBooks` requests for the given facet, query and filters,
    or the URIError that `encodeURIComponent` throws on one of the values.
  */
  function SearchUrl(t: SearchType, query: JsString, year: JsString, lang: JsString): Result<string, UriError>
  {
    if Encode(query).Err? || YearPart(year).Err? || LanguagePart(lang).Err? then Err(URIError)
    else Ok(Endpoint + FacetField(t, Encode(query).value) + YearPart(year).value + LanguagePart(lang).value + "&limit=50")
  }

  /** The facet parameter `<facet>=<encoded query>`. */
  function FacetField(t: SearchType, q: string): string
  {
    FacetName(t) + "=" + q
  }

  lemma FacetFieldCases(t: SearchType, q: string)
    ensures t == Title ==> FacetField(t, q) == "title=" + q
    ensures t == Author ==> FacetField(t, q) == "author=" + q
    ensures t == Subject ==> FacetField(t, q) == "subject=" + q
    ensures t == Isbn ==> FacetField(t, q) == "isbn=" + q
  {
    match t
    case Title => assert "title" + "=" == "title=";
    case Author => assert "author" + "=" == "author=";
    case Subject => assert "subject" + "=" == "subject=";
    case Isbn => assert "isbn" + "=" == "isbn=";
  }

  /** The URL construction of `searchBooks`, step by step as the source appends to `url`. */
  method BuildSearchUrl(t: SearchType, query: JsString, year: JsString, lang: JsString)
    returns (r: Result<string, UriError>)
    ensures r == SearchUrl(t, query, year, lang)
    ensures r.Ok? ==> QueryOf(r.value) == Some(SearchParams(t, query, year, lang))
  {
    var url := Endpoint;
    var q := Encode(query);
    if q.Err? {
      return Err(URIError);
    }
    FacetFieldCases(t, q.value);
    match t {
      case Title => url := url + ("title=" + q.value);
      case Author => url := url + ("author=" + q.value);
      case Subject => url := url + ("subject=" + q.value);
      case Isbn => url := url + ("isbn=" + q.value);
    }
    assert url == Endpoint + FacetField(t, q.value);
    if year != [] {
      var y := Encode(year);
      if y.Err? {
        assert YearPart(year).Err?;
        return Err(URIError);
      }
      url := url + ("&first_publish_year=" + y.value);
    }
    assert url == Endpoint + FacetField(t, q.value) + YearPart(year).value;
    if lang != [] {
      var l := Encode(lang);
      if l.Err? {
        assert LanguagePart(lang).Err?;
        return Err(URIError);
      }
      url := url + ("&language=" + l.value);
    }
    assert url == Endpoint + FacetField(t, q.value) + YearPart(year).value + LanguagePart(lang).value;
    url := url + "&limit=50";
    r := Ok(url);
    SearchUrlParams(t, query, year, lang);
  }

  // ------------------------------------------------- reading a URL back

  /** The index of the first occurrence of c in s. */
  function FirstIndex(s: string, c: char): (k: nat)
    requires c in s
    ensures k < |s| && s[k] == c && c !in s[..k]
  {
    if s[0] == c then 0
    else
      assert c in s[1..] by { var i :| 0 <= i < |s| && s[i] == c; assert s[1..][i - 1] == c; }
      var k := FirstIndex(s[1..], c);
      assert s[..k + 1] == [s[0]] + s[1..][..k];
      k + 1
  }

  /** One `name=value` field: the name up to the first `=`, and the decoded value after it. */
  function ParseField(f: string): Option<(string, JsString)>
  {
    if '=' !in f then None
    else
      var k := FirstIndex(f, '=');
      match Decode(f[k + 1..])
      case None => None
      case Some(v) => Some((f[..k], v))
  }

  /** Applies a partial function to every element; None as soon as one of them fails. */
  function MapAll<A, B>(f: A -> Option<B>, xs: seq<A>): Option<seq<B>>
  {
    if xs == [] then Some([])
    else if f(xs[0]).None? || MapAll(f, xs[1..]).None? then None
    else Some([f(xs[0]).value] + MapAll(f, xs[1..]).value)
  }

  function ParseFields(fs: seq<string>): Option<seq<(string, JsString)>>
  {
    MapAll(ParseField, fs)
  }

  /**
    The parameters of a search URL as this model's query-string reader
    reads them: the text after the endpoint split at `&`, each field split
    at its first `=`, each value percent-decoded.
  */
  function QueryOf(url: string): Option<seq<(string, JsString)>>
  {
    if |url| < |Endpoint| || url[..|Endpoint|] != Endpoint then None
    else ParseFields(SplitBy(url[|Endpoint|..], "&"))
  }

  /**
    The parameters the search means to send: the facet with the query as
    typed (not trimmed), the year and the language only when non-empty and
    in that order, and the limit of 50.
  */
  function SearchParams(t: SearchType, query: JsString, year: JsString, lang: JsString): seq<(string, JsString)>
  {
    [(FacetName(t), query)]
    + Optional(year != [], ("first_publish_year", year))
    + Optional(lang != [], ("language", lang))
    + [("limit", AsciiUnits("50"))]
  }

  function ParamNames(ps: seq<(string, JsString)>): seq<string>
  {
    if ps == [] then [] else [ps[0].0] + ParamNames(ps[1..])
  }

  // ------------------------------------------------- proofs

  /** [x] when the condition holds, else nothing. */
  function Optional<T>(present: bool, x: T): seq<T>
  {
    if present then [x] else []
  }

  lemma JoinCons(x: string, xs: seq<string>, sep: string)
    requires xs != []
    ensures Join([x] + xs, sep) == x + sep + Join(xs, sep)
  {
    assert ([x] + xs)[1..] == xs;
  }

  /** Joining the four-slot field list of a search with `&`. */
  lemma JoinFields(f0: string, hasY: bool, fy: string, hasL: bool, fl: string, f3: string)
    ensures Join([f0] + Optional(hasY, fy) + Optional(hasL, fl) + [f3], "&")
      == f0 + (if hasY then "&" + fy else []) + (if hasL then "&" + fl else []) + "&" + f3
  {
    var rest := Optional(hasL, fl) + [f3];
    assert [f0] + Optional(hasY, fy) + Optional(hasL, fl) + [f3] == [f0] + (Optional(hasY, fy) + rest);
    JoinCons(f0, Optional(hasY, fy) + rest, "&");
    if hasY {
      assert Optional(hasY, fy) + rest == [fy] + rest;
      JoinCons(fy, rest, "&");
    } else {
      assert Optional(hasY, fy) + rest == rest;
    }
    if hasL {
      assert rest == [fl] + [f3];
      JoinCons(fl, [f3], "&");
    } else {
      assert rest == [f3];
    }
  }

  lemma FirstIndexOfField(name: string, value: string)
    requires '=' !in name
    ensures var f := name + "=" + value; '=' in f && FirstIndex(f, '=') == |name|
  {
    var f := name + "=" + value;
    assert f[|name|] == '=';
  }

  /** A field written as name=Encode(v) reads back as the pair (name, v). */
  lemma ParseEncodedField(name: string, v: JsString)
    requires '=' !in name && Encode(v).Ok?
    ensures ParseField(name + "=" + Encode(v).value) == Some((name, v))
  {
    var e := Encode(v).value;
    var f := name + "=" + e;
    FirstIndexOfField(name, e);
    assert f[|name| + 1..] == e && f[..|name|] == name;
    DecodeEncode(v);
  }

  lemma EncodedFieldFree(name: string, v: JsString)
    requires '&' !in name && Encode(v).Ok?
    ensures '&' !in name + "=" + Encode(v).value
  {
    EncodedHasNoDelimiters(Encode(v).value);
  }

  /** A string of unescaped ASCII characters is its own encoding. */
  lemma {:induction false} EncodeUnescapedAscii(w: string)
    requires forall i :: 0 <= i < |w| ==> w[i] as int < 0x80 && IsUnescaped(w[i] as int)
    ensures Encode(AsciiUnits(w)) == Ok(w)
    decreases |w|
  {
    if w != [] {
      var s := AsciiUnits(w);
      assert s[1..] == AsciiUnits(w[1..]);
      EncodeUnescapedAscii(w[1..]);
      assert s[0] as char == w[0];
      assert w == [w[0]] + w[1..];
    }
  }

  /** The fields of a successful search URL, in order. */
  function Fields(t: SearchType, q: string, year: JsString, y: string, lang: JsString, l: string): seq<string>
  {
    [FacetField(t, q)]
    + Optional(year != [], "first_publish_year=" + y)
    + Optional(lang != [], "language=" + l)
    + ["limit=50"]
  }

  /** The encoded value of a filter whose encoding succeeded, or nothing for an empty filter. */
  function EncodedFilter(filter: JsString): string
    requires filter != [] ==> Encode(filter).Ok?
  {
    if filter != [] then Encode(filter).value else []
  }

  /** After the endpoint, a search URL is its fields joined with `&`. */
  lemma SearchUrlIsJoin(t: SearchType, query: JsString, year: JsString, lang: JsString)
    requires SearchUrl(t, query, year, lang).Ok?
    ensures Encode(query).Ok? && (year != [] ==> Encode(year).Ok?) && (lang != [] ==> Encode(lang).Ok?)
    ensures var url := SearchUrl(t, query, year, lang).value;
      |url| >= |Endpoint| && url[..|Endpoint|] == Endpoint
      && url[|Endpoint|..] == Join(Fields(t, Encode(query).value, year, EncodedFilter(year), lang, EncodedFilter(lang)), "&")
  {
    var q := Encode(query).value;
    var y, l := EncodedFilter(year), EncodedFilter(lang);
    YearPartField(year);
    LanguagePartField(lang);
    JoinedAfterPrefix(Endpoint, FacetField(t, q), year != [], "first_publish_year=" + y, YearPart(year).value,
                      lang != [], "language=" + l, LanguagePart(lang).value);
  }

  /** A URL assembled from a prefix, a first field, optional `&field` parts and `&limit=50`. */
  lemma JoinedAfterPrefix(e: string, f0: string, hasY: bool, fy: string, yp: string, hasL: bool, fl: string, lp: string)
    requires yp == if hasY then "&" + fy else []
    requires lp == if hasL then "&" + fl else []
    ensures var s := e + f0 + yp + lp + "&limit=50";
      |s| >= |e| && s[..|e|] == e && s[|e|..] == Join([f0] + Optional(hasY, fy) + Optional(hasL, fl) + ["limit=50"], "&")
  {
    assert "&limit=50" == "&" + "limit=50";
    JoinFields(f0, hasY, fy, hasL, fl, "limit=50");
    AfterPrefix(e, f0, yp, lp, "&limit=50");
  }

  lemma YearPartField(year: JsString)
    requires YearPart(year).Ok?
    ensures YearPart(year).value == if year == [] then [] else "&" + ("first_publish_year=" + Encode(year).value)
  {
    assert "&first_publish_year=" == "&" + "first_publish_year=";
  }

  lemma LanguagePartField(lang: JsString)
    requires LanguagePart(lang).Ok?
    ensures LanguagePart(lang).value == if lang == [] then [] else "&" + ("language=" + Encode(lang).value)
  {
    assert "&language=" == "&" + "language=";
  }

  lemma AfterPrefix(e: string, a: string, b: string, c: string, d: string)
    ensures var s := e + a + b + c + d; |s| >= |e| && s[..|e|] == e && s[|e|..] == a + b + c + d
  {
  }

  lemma {:induction false} MapAllAppend<A, B>(f: A -> Option<B>, a: seq<A>, b: seq<A>)
    requires MapAll(f, a).Some? && MapAll(f, b).Some?
    ensures MapAll(f, a + b) == Some(MapAll(f, a).value + MapAll(f, b).value)
    decreases |a|
  {
    if a == [] {
      assert a + b == b;
      assert MapAll(f, a).value + MapAll(f, b).value == MapAll(f, b).value;
    } else {
      assert (a + b)[0] == a[0] && (a + b)[1..] == a[1..] + b;
      MapAllAppend(f, a[1..], b);
      var pa, pb := MapAll(f, a).value, MapAll(f, b).value;
      assert [f(a[0]).value] + MapAll(f, a[1..] + b).value == pa + pb;
    }
  }

  lemma MapAllOptional<A, B>(f: A -> Option<B>, present: bool, x: A, y: B)
    requires present ==> f(x) == Some(y)
    ensures MapAll(f, Optional(present, x)) == Some(Optional(present, y))
  {
    if present {
      assert MapAll(f, [x][1..]) == Some([]);
      assert [f([x][0]).value] + MapAll(f, [x][1..]).value == [y];
    }
  }

  lemma FreeOfAppend(a: seq<string>, b: seq<string>, c: char)
    requires FreeOf(a, c) && FreeOf(b, c)
    ensures FreeOf(a + b, c)
  {
    forall i | 0 <= i < |a + b|
      ensures c !in (a + b)[i]
    {
      if i < |a| {
        assert (a + b)[i] == a[i];
      } else {
        assert (a + b)[i] == b[i - |a|];
      }
    }
  }

  /** No field of a search URL contains `&`. */
  lemma SearchFieldsFree(t: SearchType, query: JsString, year: JsString, lang: JsString)
    requires Encode(query).Ok? && (year != [] ==> Encode(year).Ok?) && (lang != [] ==> Encode(lang).Ok?)
    ensures FreeOf(Fields(t, Encode(query).value, year, EncodedFilter(year), lang, EncodedFilter(lang)), '&')
  {
    var y, l := EncodedFilter(year), EncodedFilter(lang);
    EncodedFieldFree(FacetName(t), query);
    if year != [] { EncodedFieldFree("first_publish_year", year); }
    if lang != [] { EncodedFieldFree("language", lang); }
    var a := [FacetField(t, Encode(query).value)];
    var b := Optional(year != [], "first_publish_year=" + y);
    var c := Optional(lang != [], "language=" + l);
    var d := ["limit=50"];
    FreeOfAppend(a, b, '&');
    FreeOfAppend(a + b, c, '&');
    FreeOfAppend(a + b + c, d, '&');
  }

  /** Each field of a search URL reads back as its parameter. */
  lemma ParseSearchFields(t: SearchType, query: JsString, year: JsString, lang: JsString)
    requires Encode(query).Ok? && (year != [] ==> Encode(year).Ok?) && (lang != [] ==> Encode(lang).Ok?)
    ensures ParseFields(Fields(t, Encode(query).value, year, EncodedFilter(year), lang, EncodedFilter(lang)))
      == Some(SearchParams(t, query, year, lang))
  {
    var q, y, l := Encode(query).value, EncodedFilter(year), EncodedFilter(lang);
    ParseFacetField(t, query);
    if year != [] { ParseYearField(year); }
    if lang != [] { ParseLanguageField(lang); }
    ParseFieldsOf(t, query, year, lang, q, y, l);
  }

  /** The field list reads back as the parameters once each field is known to read back as its parameter. */
  lemma ParseFieldsOf(t: SearchType, query: JsString, year: JsString, lang: JsString, q: string, y: string, l: string)
    requires ParseField(FacetField(t, q)) == Some((FacetName(t), query))
    requires year != [] ==> ParseField("first_publish_year=" + y) == Some(("first_publish_year", year))
    requires lang != [] ==> ParseField("language=" + l) == Some(("language", lang))
    ensures ParseFields(Fields(t, q, year, y, lang, l)) == Some(SearchParams(t, query, year, lang))
  {
    ParseLimitField();
    MapAllFields(ParseField, FacetField(t, q), year != [], "first_publish_year=" + y,
                 lang != [], "language=" + l, "limit=50",
                 (FacetName(t), query), ("first_publish_year", year), ("language", lang), ("limit", AsciiUnits("50")));
  }

  lemma ParseFacetField(t: SearchType, query: JsString)
    requires Encode(query).Ok?
    ensures ParseField(FacetField(t, Encode(query).value)) == Some((FacetName(t), query))
  {
    ParseEncodedField(FacetName(t), query);
  }

  lemma ParseYearField(year: JsString)
    requires Encode(year).Ok?
    ensures ParseField("first_publish_year=" + Encode(year).value) == Some(("first_publish_year", year))
  {
    ParseNamedField("first_publish_year", "first_publish_year=", year);
  }

  lemma ParseLanguageField(lang: JsString)
    requires Encode(lang).Ok?
    ensures ParseField("language=" + Encode(lang).value) == Some(("language", lang))
  {
    ParseNamedField("language", "language=", lang);
  }

  lemma ParseNamedField(name: string, key: string, v: JsString)
    requires key == name + "=" && '=' !in name && Encode(v).Ok?
    ensures ParseField(key + Encode(v).value) == Some((name, v))
  {
    ParseEncodedField(name, v);
  }

  lemma ParseLimitField()
    ensures ParseField("limit=50") == Some(("limit", AsciiUnits("50")))
  {
    EncodeUnescapedAscii("50");
    ParseEncodedField("limit", AsciiUnits("50"));
    assert "limit" + "=" + "50" == "limit=50";
  }

  /** MapAll over the four-slot field list of a search, one slot at a time. */
  lemma MapAllFields<A, B>(f: A -> Option<B>, f0: A, hasY: bool, fy: A, hasL: bool, fl: A, f3: A,
                           p0: B, py: B, pl: B, p3: B)
    requires f(f0) == Some(p0) && f(f3) == Some(p3)
    requires hasY ==> f(fy) == Some(py)
    requires hasL ==> f(fl) == Some(pl)
    ensures MapAll(f, [f0] + Optional(hasY, fy) + Optional(hasL, fl) + [f3])
      == Some([p0] + Optional(hasY, py) + Optional(hasL, pl) + [p3])
  {
    MapAllOptional(f, true, f0, p0);
    MapAllOptional(f, hasY, fy, py);
    MapAllOptional(f, hasL, fl, pl);
    MapAllOptional(f, true, f3, p3);
    MapAllAppend(f, [f0], Optional(hasY, fy));
    MapAllAppend(f, [f0] + Optional(hasY, fy), Optional(hasL, fl));
    MapAllAppend(f, [f0] + Optional(hasY, fy) + Optional(hasL, fl), [f3]);
  }

  /** A successful search URL reads back as exactly the intended parameters, values decoded to what the user typed. */
  lemma SearchUrlParams(t: SearchType, query: JsString, year: JsString, lang: JsString)
    requires SearchUrl(t, query, year, lang).Ok?
    ensures QueryOf(SearchUrl(t, query, year, lang).value) == Some(SearchParams(t, query, year, lang))
  {
    SearchUrlIsJoin(t, query, year, lang);
    SearchFieldsFree(t, query, year, lang);
    ParseSearchFields(t, query, year, lang);
    SplitJoin(Fields(t, Encode(query).value, year, EncodedFilter(year), lang, EncodedFilter(lang)), "&");
  }

  lemma ParamNamesAppend(a: seq<(string, JsString)>, b: seq<(string, JsString)>)
    ensures ParamNames(a + b) == ParamNames(a) + ParamNames(b)
  {
    if a == [] {
      assert a + b == b;
    } else {
      assert (a + b)[0] == a[0] && (a + b)[1..] == a[1..] + b;
      ParamNamesAppend(a[1..], b);
    }
  }

  /**
    The parameter names of a search are the facet, then `first_publish_year`
    exactly when the year filter is set, then `language` exactly when the
    language filter is set, then `limit`; nothing else.
  */
  lemma SearchParamNames(t: SearchType, query: JsString, year: JsString, lang: JsString)
    ensures ParamNames(SearchParams(t, query, year, lang))
      == [FacetName(t)] + Optional(year != [], "first_publish_year") + Optional(lang != [], "language") + ["limit"]
  {
    ParamNamesFields((FacetName(t), query), year != [], ("first_publish_year", year),
                     lang != [], ("language", lang), ("limit", AsciiUnits("50")));
  }

  lemma ParamNamesFields(p0: (string, JsString), hasY: bool, py: (string, JsString),
                         hasL: bool, pl: (string, JsString), p3: (string, JsString))
    ensures ParamNames([p0] + Optional(hasY, py) + Optional(hasL, pl) + [p3])
      == [p0.0] + Optional(hasY, py.0) + Optional(hasL, pl.0) + [p3.0]
  {
    var ys, ls := Optional(hasY, py), Optional(hasL, pl);
    assert ParamNames([p3]) == [p3.0];
    assert ParamNames(ys) == Optional(hasY, py.0);
    assert ParamNames(ls) == Optional(hasL, pl.0);
    ParamNamesAppend([p0] + ys + ls, [p3]);
    ParamNamesAppend([p0] + ys, ls);
    ParamNamesAppend([p0], ys);
  }

  /**
    A search URL starts with the endpoint and the facet parameter, and ends
    with `&limit=50`.
  */
  lemma SearchUrlShape(t: SearchType, query: JsString, year: JsString, lang: JsString)
    requires SearchUrl(t, query, year, lang).Ok?
    ensures var url := SearchUrl(t, query, year, lang).value;
      var head := Endpoint + FacetName(t) + "=";
      |url| >= |head| + 9
      && url[..|head|] == head
      && url[|url| - 9..] == "&limit=50"
  {
    UrlEnds(Endpoint, FacetName(t), Encode(query).value, YearPart(year).value, LanguagePart(lang).value, "&limit=50");
  }

  lemma UrlEnds(e: string, name: string, q: string, yp: string, lp: string, last: string)
    ensures var w := e + (name + "=" + q) + yp + lp + last;
      var head := e + name + "=";
      |w| >= |head| + |last| && w[..|head|] == head && w[|w| - |last|..] == last
  {
    var w := e + (name + "=" + q) + yp + lp + last;
    assert w == (e + name + "=") + (q + yp + lp) + last;
  }

  /**
    The request fails, before anything is sent, exactly when the query, or
    a filter that is set, holds an unpaired surrogate.
  */
  lemma SearchUrlFails(t: SearchType, query: JsString, year: JsString, lang: JsString)
    ensures SearchUrl(t, query, year, lang).Err?
      <==> HasUnpairedSurrogate(query)
           || (year != [] && HasUnpairedSurrogate(year))
           || (lang != [] && HasUnpairedSurrogate(lang))
  {
    EncodeFailsIff(query);
    EncodeFailsIff(year);
    EncodeFailsIff(lang);
  }
}

=== FILE: text.dfy ===
/**
  The array and string operations the view uses to build its text:
  `Array.prototype.slice(0, n)`, `Array.prototype.join`, `String.prototype.split`
  (as the partner of join) and the decimal form of an integer number.
*/
module Text {
  import opened Wrappers

  // ---------------------------------------------------------------- slice

  /** `xs.slice(0, n)`: the first n elements, or all of them when there are fewer. */
  function Take<T>(xs: seq<T>, n: nat): (r: seq<T>)
    ensures |r| == (if |xs| < n then |xs| else n)
    ensures r == xs[..|r|]
  {
    if |xs| <= n then xs else xs[..n]
  }

  // ---------------------------------------------------------------- join / split

  /** `xs.join(sep)`: the elements with `sep` between each two neighbours. */
  function Join(xs: seq<string>, sep: string): string
  {
    if xs == [] then []
    else if |xs| == 1 then xs[0]
    else xs[0] + sep + Join(xs[1..], sep)
  }

  /**
    `s.split(sep)` for a non-empty separator: the pieces between the
    occurrences of `sep` found scanning from the left.
  */
  function SplitBy(s: string, sep: string): (r: seq<string>)
    requires sep != []
    ensures |r| >= 1
    decreases |s|
  {
    if |s| < |sep| then [s]
    else if s[..|sep|] == sep then [[]] + SplitBy(s[|sep|..], sep)
    else
      var rest := SplitBy(s[1..], sep);
      [[s[0]] + rest[0]] + rest[1..]
  }

  /** No element of xs contains the character c. */
  predicate FreeOf(xs: seq<string>, c: char)
  {
    forall i :: 0 <= i < |xs| ==> c !in xs[i]
  }

  lemma {:induction false} SplitWithoutSeparator(x: string, sep: string)
    requires sep != [] && sep[0] !in x
    ensures SplitBy(x, sep) == [x]
    decreases |x|
  {
    if |x| >= |sep| {
      assert x[..|sep|][0] == x[0];
      SplitWithoutSeparator(x[1..], sep);
      assert [x[0]] + x[1..] == x;
    }
  }

  lemma {:induction false} SplitAtSeparator(x: string, sep: string, y: string)
    requires sep != [] && sep[0] !in x
    ensures SplitBy(x + sep + y, sep) == [x] + SplitBy(y, sep)
    decreases |x|
  {
    var s := x + sep + y;
    if x == [] {
      assert s[..|sep|] == sep && s[|sep|..] == y;
    } else {
      assert s[..|sep|][0] == x[0];
      assert s[1..] == x[1..] + sep + y;
      SplitAtSeparator(x[1..], sep, y);
      assert [x[0]] + x[1..] == x;
    }
  }

  /** Splitting a join gives the elements back, when none of them holds the separator's first character. */
  lemma {:induction false} SplitJoin(xs: seq<string>, sep: string)
    requires xs != [] && sep != [] && FreeOf(xs, sep[0])
    ensures SplitBy(Join(xs, sep), sep) == xs
    decreases |xs|
  {
    if |xs| == 1 {
      SplitWithoutSeparator(xs[0], sep);
    } else {
      SplitJoin(xs[1..], sep);
      SplitAtSeparator(xs[0], sep, Join(xs[1..], sep));
      assert xs == [xs[0]] + xs[1..];
    }
  }

  // ---------------------------------------------------------------- framing

  /** The text between a known prefix and a known suffix, when `w` has both. */
  function Unframe(w: string, prefix: string, suffix: string): Option<string>
  {
    if |w| >= |prefix| + |suffix| && w[..|prefix|] == prefix && w[|w| - |suffix|..] == suffix
    then Some(w[|prefix|..|w| - |suffix|])
    else None
  }

  /** A text written between a prefix and a suffix is read back by Unframe. */
  lemma UnframeFrame(prefix: string, middle: string, suffix: string)
    ensures Unframe(prefix + middle + suffix, prefix, suffix) == Some(middle)
  {
    var w := prefix + middle + suffix;
    assert w[..|prefix|] == prefix;
    assert w[|w| - |suffix|..] == suffix;
    assert w[|prefix|..|w| - |suffix|] == middle;
  }

  // ---------------------------------------------------------------- numbers

  predicate IsDigit(c: char) { '0' <= c <= '9' }

  predicate AllDigits(s: string) { forall i :: 0 <= i < |s| ==> IsDigit(s[i]) }

  function DigitChar(d: int): (c: char)
    requires 0 <= d < 10
    ensures IsDigit(c)
  {
    ('0' as int + d) as char
  }

  /** The decimal digits of a natural number, without leading zeros. */
  function NatToString(n: nat): (r: string)
    ensures |r| >= 1 && AllDigits(r)
    ensures |r| > 1 ==> r[0] != '0'
    decreases n
  {
    if n < 10 then [DigitChar(n)] else NatToString(n / 10) + [DigitChar(n % 10)]
  }

  /** The decimal text of an integral JavaScript number (`String(n)`). */
  function IntToString(n: int): (r: string)
    ensures |r| >= 1
  {
    if n < 0 then "-" + NatToString(-n) else NatToString(n)
  }

  /** The value of a string of decimal digits. */
  function DigitsValue(s: string): nat
    requires AllDigits(s)
  {
    if s == [] then 0
    else DigitsValue(s[..|s| - 1]) * 10 + (s[|s| - 1] as int - '0' as int)
  }

  /** Reads an optionally signed decimal integer; None on anything else. */
  function ParseInt(s: string): Option<int>
  {
    if s != [] && s[0] == '-' then
      if |s| > 1 && AllDigits(s[1..]) then Some(-(DigitsValue(s[1..]) as int)) else None
    else if s != [] && AllDigits(s) then Some(DigitsValue(s))
    else None
  }

  lemma {:induction false} NatToStringValue(n: nat)
    ensures DigitsValue(NatToString(n)) == n
    decreases n
  {
    if n >= 10 {
      var r := NatToString(n);
      NatToStringValue(n / 10);
      assert r[..|r| - 1] == NatToString(n / 10);
    }
  }

  /** Reading back the decimal text of an integer gives the integer. */
  lemma ParseIntToString(n: int)
    ensures ParseInt(IntToString(n)) == Some(n)
  {
    if n < 0 {
      NatToStringValue(-n);
      assert IntToString(n)[1..] == NatToString(-n);
    } else {
      NatToStringValue(n);
    }
  }
}

=== FILE: unicode.dfy ===
/**
  Unicode encoding forms used by the URI functions of ECMA-262:
  UTF-16 (the representation of every JavaScript string) and UTF-8
  (the octets that `encodeURIComponent` percent-encodes, RFC 3629).
*/
module Unicode {
  import opened Wrappers

  /** A UTF-16 code unit: one element of a JavaScript string. */
  type CodeUnit = u: int | 0 <= u < 0x1_0000

  /** A Unicode code point. */
  type CodePoint = c: int | 0 <= c < 0x11_0000

  /** An octet. */
  type Byte = b: int | 0 <= b < 0x100

  /** A JavaScript string value: a sequence of UTF-16 code units, not necessarily well formed. */
  type JsString = seq<CodeUnit>

  predicate IsLeadSurrogate(u: int) { 0xD800 <= u <= 0xDBFF }

  predicate IsTrailSurrogate(u: int) { 0xDC00 <= u <= 0xDFFF }

  predicate IsSurrogate(u: int) { 0xD800 <= u <= 0xDFFF }

  /** A Unicode scalar value: a code point that is not a surrogate. */
  predicate IsScalar(c: CodePoint) { !IsSurrogate(c) }

  predicate AllScalars(cps: seq<CodePoint>) { forall i :: 0 <= i < |cps| ==> IsScalar(cps[i]) }

  /** UTF16SurrogatePairToCodePoint of ECMA-262. */
  function CombineSurrogates(lead: CodeUnit, trail: CodeUnit): (c: CodePoint)
    requires IsLeadSurrogate(lead) && IsTrailSurrogate(trail)
    ensures 0x1_0000 <= c && IsScalar(c)
  {
    (lead - 0xD800) * 0x400 + (trail - 0xDC00) + 0x1_0000
  }

  // ---------------------------------------------------------------- UTF-16

  /** UTF16EncodeCodePoint of ECMA-262: one or two code units. */
  function Utf16Encode(c: CodePoint): JsString
  {
    if c < 0x1_0000 then [c]
    else [(c - 0x1_0000) / 0x400 + 0xD800, (c - 0x1_0000) % 0x400 + 0xDC00]
  }

  function Utf16EncodeAll(cps: seq<CodePoint>): JsString
  {
    if cps == [] then [] else Utf16Encode(cps[0]) + Utf16EncodeAll(cps[1..])
  }

  /**
    The code points of a string, read as CodePointAt of ECMA-262 reads them:
    a lead surrogate followed by a trail surrogate is one code point, any other
    code unit is its own code point, and an unpaired surrogate makes the
    string ill formed (None).
  */
  function CodePoints(s: JsString): (r: Option<seq<CodePoint>>)
    ensures r.Some? ==> AllScalars(r.value)
    decreases |s|
  {
    if s == [] then Some([])
    else if IsTrailSurrogate(s[0]) then None
    else if IsLeadSurrogate(s[0]) then
      if |s| < 2 || !IsTrailSurrogate(s[1]) then None
      else
        match CodePoints(s[2..])
        case None => None
        case Some(rest) => Some([CombineSurrogates(s[0], s[1])] + rest)
    else
      match CodePoints(s[1..])
      case None => None
      case Some(rest) => Some([s[0] as CodePoint] + rest)
  }

  /** A pair split back by Utf16Encode gives the two code units it came from. */
  lemma CombineSplit(lead: CodeUnit, trail: CodeUnit)
    requires IsLeadSurrogate(lead) && IsTrailSurrogate(trail)
    ensures Utf16Encode(CombineSurrogates(lead, trail)) == [lead, trail]
  {
    var hi, lo := lead - 0xD800, trail - 0xDC00;
    var c := CombineSurrogates(lead, trail);
    assert c - 0x1_0000 == hi * 0x400 + lo;
    DivModUnique(c - 0x1_0000, 0x400, hi, lo);
  }

  /** A supplementary code point encoded and recombined is unchanged. */
  lemma SplitCombine(c: CodePoint)
    requires 0x1_0000 <= c
    ensures var u := Utf16Encode(c);
      |u| == 2 && IsLeadSurrogate(u[0]) && IsTrailSurrogate(u[1]) && CombineSurrogates(u[0], u[1]) == c
  {
  }

  /** Euclidean division has a unique quotient and remainder. */
  lemma DivModUnique(n: int, d: int, q: int, r: int)
    requires 0 < d && 0 <= r < d && n == q * d + r
    ensures n / d == q && n % d == r
  {
    var q', r' := n / d, n % d;
    assert n == q' * d + r';
    if q' > q {
      assert (q' - q) * d == r - r';
      MulAtLeast(q' - q, d);
    } else if q' < q {
      assert (q - q') * d == r' - r;
      MulAtLeast(q - q', d);
    }
  }

  lemma MulAtLeast(k: int, d: int)
    requires 1 <= k && 0 < d
    ensures k * d >= d
  {
  }

  /** Re-encoding the code points of a well-formed string gives the string back. */
  lemma {:induction false} CodePointsRoundTrip(s: JsString)
    requires CodePoints(s).Some?
    ensures Utf16EncodeAll(CodePoints(s).value) == s
    decreases |s|
  {
    if s != [] {
      if IsLeadSurrogate(s[0]) {
        assert |s| >= 2 && IsTrailSurrogate(s[1]) && CodePoints(s[2..]).Some?;
        var rest := CodePoints(s[2..]).value;
        CodePointsRoundTrip(s[2..]);
        CombineSplit(s[0], s[1]);
        Utf16EncodeAllCons(CombineSurrogates(s[0], s[1]), rest);
        assert s == [s[0], s[1]] + s[2..];
      } else {
        assert !IsTrailSurrogate(s[0]) && CodePoints(s[1..]).Some?;
        var rest := CodePoints(s[1..]).value;
        CodePointsRoundTrip(s[1..]);
        Utf16EncodeAllCons(s[0], rest);
        assert s == [s[0]] + s[1..];
      }
    }
  }

  lemma Utf16EncodeAllCons(c: CodePoint, cps: seq<CodePoint>)
    ensures Utf16EncodeAll([c] + cps) == Utf16Encode(c) + Utf16EncodeAll(cps)
  {
    assert ([c] + cps)[1..] == cps;
  }

  /** Every sequence of scalar values is the code points of exactly its UTF-16 encoding. */
  lemma {:induction false} Utf16EncodeRoundTrip(cps: seq<CodePoint>)
    requires AllScalars(cps)
    ensures CodePoints(Utf16EncodeAll(cps)) == Some(cps)
    decreases |cps|
  {
    if cps != [] {
      var s := Utf16EncodeAll(cps);
      var u := Utf16Encode(cps[0]);
      Utf16EncodeRoundTrip(cps[1..]);
      assert s == u + Utf16EncodeAll(cps[1..]);
      if cps[0] < 0x1_0000 {
        assert s[1..] == Utf16EncodeAll(cps[1..]);
      } else {
        SplitCombine(cps[0]);
        assert s[2..] == Utf16EncodeAll(cps[1..]);
      }
      assert cps == [cps[0]] + cps[1..];
    }
  }

  // ---------------------------------------------------------------- UTF-8

  predicate IsContinuation(b: Byte) { 0x80 <= b <= 0xBF }

  /** The UTF-8 octets of one code point (table 3-6 of the Unicode standard, RFC 3629). */
  function Utf8Encode(c: CodePoint): (bytes: seq<Byte>)
    ensures 1 <= |bytes| <= 4
  {
    if c < 0x80 then [c]
    else if c < 0x800 then [0xC0 + c / 0x40, 0x80 + c % 0x40]
    else if c < 0x1_0000 then [0xE0 + c / 0x1000, 0x80 + (c / 0x40) % 0x40, 0x80 + c % 0x40]
    else [0xF0 + c / 0x4_0000, 0x80 + (c / 0x1000) % 0x40, 0x80 + (c / 0x40) % 0x40, 0x80 + c % 0x40]
  }

  function Utf8EncodeAll(cps: seq<CodePoint>): seq<Byte>
  {
    if cps == [] then [] else Utf8Encode(cps[0]) + Utf8EncodeAll(cps[1..])
  }

  /**
    Reads one UTF-8 sequence at the head of `bytes`: the code point and the
    number of octets it takes. Overlong forms, surrogates, values above
    U+10FFFF and missing continuation octets are rejected.
  */
  function Utf8DecodeFirst(bytes: seq<Byte>): (r: Option<(CodePoint, nat)>)
    requires bytes != []
    ensures r.Some? ==> 1 <= r.value.1 <= |bytes| && IsScalar(r.value.0)
  {
    var b0: int := bytes[0];
    if b0 < 0x80 then Some((b0 as CodePoint, 1))
    else if 0xC2 <= b0 <= 0xDF then
      if |bytes| < 2 || !IsContinuation(bytes[1]) then None
      else Some(((b0 - 0xC0) * 0x40 + (bytes[1] as int - 0x80), 2))
    else if 0xE0 <= b0 <= 0xEF then
      if |bytes| < 3 || !IsContinuation(bytes[1]) || !IsContinuation(bytes[2]) then None
      else
        var c := (b0 - 0xE0) * 0x1000 + (bytes[1] as int - 0x80) * 0x40 + (bytes[2] as int - 0x80);
        if c < 0x800 || IsSurrogate(c) then None else Some((c, 3))
    else if 0xF0 <= b0 <= 0xF4 then
      if |bytes| < 4 || !IsContinuation(bytes[1]) || !IsContinuation(bytes[2]) || !IsContinuation(bytes[3]) then None
      else
        var c := (b0 - 0xF0) * 0x4_0000 + (bytes[1] as int - 0x80) * 0x1000 + (bytes[2] as int - 0x80) * 0x40 + (bytes[3] as int - 0x80);
        if c < 0x1_0000 || c > 0x10_FFFF then None else Some((c, 4))
    else None
  }

  /** Decodes a whole octet sequence; None when it is not well-formed UTF-8. */
  function Utf8Decode(bytes: seq<Byte>): (r: Option<seq<CodePoint>>)
    ensures r.Some? ==> AllScalars(r.value)
    decreases |bytes|
  {
    if bytes == [] then Some([])
    else
      match Utf8DecodeFirst(bytes)
      case None => None
      case Some((c, n)) =>
        match Utf8Decode(bytes[n..])
        case None => None
        case Some(rest) => Some([c] + rest)
  }

  /** The first octet of a multi-octet sequence is never an ASCII octet. */
  lemma Utf8EncodeAscii(c: CodePoint)
    ensures (c < 0x80) == (|Utf8Encode(c)| == 1)
    ensures c < 0x80 ==> Utf8Encode(c) == [c]
    ensures c >= 0x80 ==> forall i :: 0 <= i < |Utf8Encode(c)| ==> Utf8Encode(c)[i] >= 0x80
  {
  }

  /** The decoder reads back exactly the octets the encoder wrote for one scalar value. */
  lemma Utf8DecodeEncodeFirst(c: CodePoint, rest: seq<Byte>)
    requires IsScalar(c)
    ensures Utf8DecodeFirst(Utf8Encode(c) + rest) == Some((c, |Utf8Encode(c)|))
  {
    if c < 0x80 {
    } else if c < 0x800 {
      Utf8DecodeTwo(c, rest);
    } else if c < 0x1_0000 {
      Utf8DecodeThree(c, rest);
    } else {
      Utf8DecodeFour(c, rest);
    }
  }

  lemma Utf8DecodeTwo(c: CodePoint, rest: seq<Byte>)
    requires 0x80 <= c < 0x800
    ensures Utf8DecodeFirst(Utf8Encode(c) + rest) == Some((c, 2))
  {
    assert c == (c / 0x40) * 0x40 + c % 0x40;
  }

  lemma Utf8DecodeThree(c: CodePoint, rest: seq<Byte>)
    requires 0x800 <= c < 0x1_0000 && IsScalar(c)
    ensures Utf8DecodeFirst(Utf8Encode(c) + rest) == Some((c, 3))
  {
    var q1 := c / 0x40;
    var q2 := q1 / 0x40;
    assert c == q1 * 0x40 + c % 0x40;
    assert q1 == q2 * 0x40 + q1 % 0x40;
    DivModUnique(c, 0x1000, q2, q1 % 0x40 * 0x40 + c % 0x40);
  }

  lemma Utf8DecodeFour(c: CodePoint, rest: seq<Byte>)
    requires 0x1_0000 <= c
    ensures Utf8DecodeFirst(Utf8Encode(c) + rest) == Some((c, 4))
  {
    var q1 := c / 0x40;
    var q2 := q1 / 0x40;
    var q3 := q2 / 0x40;
    assert c == q1 * 0x40 + c % 0x40;
    assert q1 == q2 * 0x40 + q1 % 0x40;
    assert q2 == q3 * 0x40 + q2 % 0x40;
    DivModUnique(c, 0x1000, q2, q1 % 0x40 * 0x40 + c % 0x40);
    DivModUnique(c, 0x4_0000, q3, (q2 % 0x40) * 0x1000 + (q1 % 0x40) * 0x40 + c % 0x40);
    DivModUnique(c / 0x1000, 0x40, q3, q2 % 0x40);
  }

  /** Decoding the UTF-8 form of scalar values gives them back. */
  lemma {:induction false} Utf8RoundTrip(cps: seq<CodePoint>)
    requires AllScalars(cps)
    ensures Utf8Decode(Utf8EncodeAll(cps)) == Some(cps)
    decreases |cps|
  {
    if cps != [] {
      var first, rest := Utf8Encode(cps[0]), Utf8EncodeAll(cps[1..]);
      var bytes := Utf8EncodeAll(cps);
      assert Utf8DecodeFirst(bytes) == Some((cps[0], |first|)) && bytes[|first|..] == rest by {
        assert bytes == first + rest;
        Utf8DecodeEncodeFirst(cps[0], rest);
      }
      Utf8RoundTrip(cps[1..]);
      assert Utf8Decode(bytes) == Some([cps[0]] + cps[1..]);
      assert cps == [cps[0]] + cps[1..];
    }
  }
}

=== FILE: uri.dfy ===
/**
  `encodeURIComponent`, the Encode abstract operation of ECMA-262
  (section 19.2.6, URI Handling Functions) with the component-unreserved
  set, and its inverse on the strings it produces.
*/
module Uri {
  import opened Wrappers
  import opened Unicode

  /** The URIError that Encode throws on an unpaired surrogate. */
  datatype UriError = URIError

  /**
    The code units `encodeURIComponent` copies unchanged: uriAlpha,
    DecimalDigit and uriMark (`- _ . ! ~ * ' ( )`).
  */
  predicate IsUnescaped(u: int)
  {
    (0x41 <= u <= 0x5A) || (0x61 <= u <= 0x7A) || (0x30 <= u <= 0x39)
    || u == 0x2D || u == 0x5F || u == 0x2E || u == 0x21 || u == 0x7E
    || u == 0x2A || u == 0x27 || u == 0x28 || u == 0x29
  }

  predicate IsUpperHexDigit(c: char) { '0' <= c <= '9' || 'A' <= c <= 'F' }

  /**
    The shape of every string Encode returns: only unescaped characters and
    `%` signs, each `%` followed by two upper-case hexadecimal digits.
  */
  predicate IsEncodedComponent(t: string)
  {
    forall i :: 0 <= i < |t| ==> EncodedAt(t, i)
  }

  /** Position i holds an unescaped character or starts a `%XY` triple. */
  predicate EncodedAt(t: string, i: int)
    requires 0 <= i < |t|
  {
    IsUnescaped(t[i] as int)
    || (t[i] == '%' && i + 2 < |t| && IsUpperHexDigit(t[i + 1]) && IsUpperHexDigit(t[i + 2]))
  }

  /** The upper-case hexadecimal digit of a value below 16. */
  function HexDigit(n: int): (c: char)
    requires 0 <= n < 16
    ensures IsUpperHexDigit(c)
  {
    if n < 10 then ('0' as int + n) as char else ('A' as int + n - 10) as char
  }

  /** The value of a hexadecimal digit of either case. */
  function HexValue(c: char): (r: Option<int>)
    ensures r.Some? ==> 0 <= r.value < 16
    ensures r.Some? <==> ('0' <= c <= '9' || 'A' <= c <= 'F' || 'a' <= c <= 'f')
  {
    if '0' <= c <= '9' then Some(c as int - '0' as int)
    else if 'A' <= c <= 'F' then Some(c as int - 'A' as int + 10)
    else if 'a' <= c <= 'f' then Some(c as int - 'a' as int + 10)
    else None
  }

  lemma HexRoundTrip(n: int)
    requires 0 <= n < 16
    ensures HexValue(HexDigit(n)) == Some(n)
  {
  }

  /** `%` followed by the octet as two upper-case hexadecimal digits. */
  function PercentEncode(b: Byte): string
  {
    ['%', HexDigit(b / 16), HexDigit(b % 16)]
  }

  function PercentEncodeAll(bytes: seq<Byte>): string
  {
    if bytes == [] then [] else PercentEncode(bytes[0]) + PercentEncodeAll(bytes[1..])
  }

  lemma EncodedAppend(a: string, b: string)
    requires IsEncodedComponent(a) && IsEncodedComponent(b)
    ensures IsEncodedComponent(a + b)
  {
    var t := a + b;
    forall i | 0 <= i < |t|
      ensures EncodedAt(t, i)
    {
      if i < |a| {
        assert t[i] == a[i];
        assert EncodedAt(a, i);
        if !IsUnescaped(a[i] as int) {
          assert t[i + 1] == a[i + 1] && t[i + 2] == a[i + 2];
        }
      } else {
        var j := i - |a|;
        assert t[i] == b[j];
        assert EncodedAt(b, j);
        if !IsUnescaped(b[j] as int) {
          assert t[i + 1] == b[j + 1] && t[i + 2] == b[j + 2];
        }
      }
    }
  }

  lemma PercentEncodeEncoded(b: Byte)
    ensures IsEncodedComponent(PercentEncode(b))
  {
    var t := PercentEncode(b);
    assert EncodedAt(t, 0) && EncodedAt(t, 1) && EncodedAt(t, 2);
  }

  lemma {:induction false} PercentEncodeAllEncoded(bytes: seq<Byte>)
    ensures IsEncodedComponent(PercentEncodeAll(bytes))
    decreases |bytes|
  {
    if bytes != [] {
      PercentEncodeAllEncoded(bytes[1..]);
      PercentEncodeEncoded(bytes[0]);
      EncodedAppend(PercentEncode(bytes[0]), PercentEncodeAll(bytes[1..]));
    }
  }

  /**
    `encodeURIComponent(s)`, written as the Encode loop of ECMA-262 reads
    the string: an unescaped code unit is copied; otherwise the code point
    at that position (one unit, or a surrogate pair) is UTF-8 encoded and
    each octet written as `%XY`; an unpaired surrogate throws URIError.
  */
  function Encode(s: JsString): (r: Result<string, UriError>)
    ensures r.Ok? ==> IsEncodedComponent(r.value)
    decreases |s|
  {
    if s == [] then Ok([])
    else if IsUnescaped(s[0]) then
      match Encode(s[1..])
      case Err(e) => Err(e)
      case Ok(rest) =>
        EncodedAppend([s[0] as char], rest);
        Ok([s[0] as char] + rest)
    else if IsTrailSurrogate(s[0]) then Err(URIError)
    else if IsLeadSurrogate(s[0]) then
      if |s| < 2 || !IsTrailSurrogate(s[1]) then Err(URIError)
      else
        match Encode(s[2..])
        case Err(e) => Err(e)
        case Ok(rest) =>
          PercentEncodeAllEncoded(Utf8Encode(CombineSurrogates(s[0], s[1])));
          EncodedAppend(PercentEncodeAll(Utf8Encode(CombineSurrogates(s[0], s[1]))), rest);
          Ok(PercentEncodeAll(Utf8Encode(CombineSurrogates(s[0], s[1]))) + rest)
    else
      match Encode(s[1..])
      case Err(e) => Err(e)
      case Ok(rest) =>
        PercentEncodeAllEncoded(Utf8Encode(s[0]));
        EncodedAppend(PercentEncodeAll(Utf8Encode(s[0])), rest);
        Ok(PercentEncodeAll(Utf8Encode(s[0])) + rest)
  }

  /** No `&` and no `=` ever comes out of Encode: a value cannot split a query string. */
  lemma EncodedHasNoDelimiters(t: string)
    requires IsEncodedComponent(t)
    ensures '&' !in t && '=' !in t && '#' !in t && '+' !in t
  {
    forall i | 0 <= i < |t|
      ensures t[i] != '&' && t[i] != '=' && t[i] != '#' && t[i] != '+'
    {
      assert EncodedAt(t, i);
    }
  }

  // ------------------------------------------------- layered reference

  /** One octet as the URI form writes it: unescaped octets literally, the rest as `%XY`. */
  function EscapeByte(b: Byte): string
  {
    if IsUnescaped(b) then [b as char] else PercentEncode(b)
  }

  function EscapeAll(bytes: seq<Byte>): string
  {
    if bytes == [] then [] else EscapeByte(bytes[0]) + EscapeAll(bytes[1..])
  }

  /**
    The reference definition of `encodeURIComponent`: read the string as
    code points (failing on an unpaired surrogate), encode them as UTF-8,
    escape every octet outside the unescaped set.
  */
  function EncodeReference(s: JsString): Result<string, UriError>
  {
    match CodePoints(s)
    case None => Err(URIError)
    case Some(cps) => Ok(EscapeAll(Utf8EncodeAll(cps)))
  }

  lemma EscapeAllAppend(a: seq<Byte>, b: seq<Byte>)
    ensures EscapeAll(a + b) == EscapeAll(a) + EscapeAll(b)
  {
    if a == [] {
      assert a + b == b;
    } else {
      assert (a + b)[0] == a[0] && (a + b)[1..] == a[1..] + b;
      EscapeAllAppend(a[1..], b);
    }
  }

  lemma {:induction false} EscapeAllPercent(bytes: seq<Byte>)
    requires forall i :: 0 <= i < |bytes| ==> !IsUnescaped(bytes[i])
    ensures EscapeAll(bytes) == PercentEncodeAll(bytes)
    decreases |bytes|
  {
    if bytes != [] {
      EscapeAllPercent(bytes[1..]);
    }
  }

  /** The octets of a code point Encode escapes are all escaped. */
  lemma EscapedCodePoint(c: CodePoint)
    requires !IsUnescaped(c)
    ensures EscapeAll(Utf8Encode(c)) == PercentEncodeAll(Utf8Encode(c))
  {
    Utf8EncodeAscii(c);
    EscapeAllPercent(Utf8Encode(c));
  }

  lemma Utf8EncodeAllCons(c: CodePoint, cps: seq<CodePoint>)
    ensures Utf8EncodeAll([c] + cps) == Utf8Encode(c) + Utf8EncodeAll(cps)
  {
    assert ([c] + cps)[0] == c && ([c] + cps)[1..] == cps;
  }

  /** Encode, as ECMA-262 writes it, computes the layered reference definition. */
  lemma {:induction false} EncodeMatchesReference(s: JsString)
    ensures Encode(s) == EncodeReference(s)
    decreases |s|
  {
    if s == [] {
    } else if IsUnescaped(s[0]) {
      EncodeMatchesReference(s[1..]);
      if CodePoints(s[1..]).Some? {
        var cps := CodePoints(s[1..]).value;
        Utf8EncodeAllCons(s[0], cps);
        Utf8EncodeAscii(s[0]);
        EscapeAllAppend([s[0] as Byte], Utf8EncodeAll(cps));
      }
    } else if IsTrailSurrogate(s[0]) {
    } else if IsLeadSurrogate(s[0]) {
      if |s| >= 2 && IsTrailSurrogate(s[1]) {
        EncodeMatchesReference(s[2..]);
        if CodePoints(s[2..]).Some? {
          var c := CombineSurrogates(s[0], s[1]);
          var cps := CodePoints(s[2..]).value;
          Utf8EncodeAllCons(c, cps);
          EscapeAllAppend(Utf8Encode(c), Utf8EncodeAll(cps));
          EscapedCodePoint(c);
        }
      }
    } else {
      EncodeMatchesReference(s[1..]);
      if CodePoints(s[1..]).Some? {
        var cps := CodePoints(s[1..]).value;
        Utf8EncodeAllCons(s[0], cps);
        EscapeAllAppend(Utf8Encode(s[0]), Utf8EncodeAll(cps));
        EscapedCodePoint(s[0]);
      }
    }
  }

  // ------------------------------------------------- decoding

  /**
    Percent-decoding to octets: `%XY` (either case) is the octet XY, an
    ASCII character is its own octet; a `%` without two hexadecimal digits,
    or a non-ASCII character, is malformed.
  */
  function Unescape(t: string): Option<seq<Byte>>
    decreases |t|
  {
    if t == [] then Some([])
    else if t[0] == '%' then
      if |t| < 3 || HexValue(t[1]).None? || HexValue(t[2]).None? then None
      else
        match Unescape(t[3..])
        case None => None
        case Some(rest) => Some([HexValue(t[1]).value * 16 + HexValue(t[2]).value] + rest)
    else if t[0] as int < 0x80 then
      match Unescape(t[1..])
      case None => None
      case Some(rest) => Some([t[0] as int as Byte] + rest)
    else None
  }

  /**
    The inverse of Encode: percent-decode to octets, decode them as UTF-8,
    and write the code points as UTF-16. None when the text is not the
    encoding of any string.
  */
  function Decode(t: string): Option<JsString>
  {
    match Unescape(t)
    case None => None
    case Some(bytes) =>
      match Utf8Decode(bytes)
      case None => None
      case Some(cps) => Some(Utf16EncodeAll(cps))
  }

  lemma {:induction false} UnescapeEscapeAll(bytes: seq<Byte>)
    ensures Unescape(EscapeAll(bytes)) == Some(bytes)
    decreases |bytes|
  {
    if bytes != [] {
      var b := bytes[0];
      var t := EscapeAll(bytes);
      UnescapeEscapeAll(bytes[1..]);
      if IsUnescaped(b) {
        assert t[1..] == EscapeAll(bytes[1..]);
      } else {
        HexRoundTrip(b / 16);
        HexRoundTrip(b % 16);
        assert t[3..] == EscapeAll(bytes[1..]);
      }
      assert bytes == [b] + bytes[1..];
    }
  }

  /** Decoding what `encodeURIComponent` returned gives back the original string. */
  lemma DecodeEncode(s: JsString)
    requires Encode(s).Ok?
    ensures Decode(Encode(s).value) == Some(s)
  {
    EncodeMatchesReference(s);
    var cps := CodePoints(s).value;
    UnescapeEscapeAll(Utf8EncodeAll(cps));
    Utf8RoundTrip(cps);
    CodePointsRoundTrip(s);
  }

  /** Encode is one-to-one on the strings it accepts. */
  lemma EncodeInjective(s: JsString, s': JsString)
    requires Encode(s).Ok? && Encode(s') == Encode(s)
    ensures s == s'
  {
    DecodeEncode(s);
    DecodeEncode(s');
  }

  // ------------------------------------------------- the error case

  /** A code unit at index i is a surrogate without its partner. */
  predicate UnpairedAt(s: JsString, i: int)
    requires 0 <= i < |s|
  {
    (IsLeadSurrogate(s[i]) && (i + 1 == |s| || !IsTrailSurrogate(s[i + 1])))
    || (IsTrailSurrogate(s[i]) && (i == 0 || !IsLeadSurrogate(s[i - 1])))
  }

  predicate HasUnpairedSurrogate(s: JsString)
  {
    exists i :: 0 <= i < |s| && UnpairedAt(s, i)
  }

  /** Dropping a code unit that is not a surrogate keeps the unpaired surrogates. */
  lemma UnpairedDropOne(s: JsString)
    requires s != [] && !IsSurrogate(s[0])
    ensures HasUnpairedSurrogate(s) <==> HasUnpairedSurrogate(s[1..])
  {
    var t := s[1..];
    if HasUnpairedSurrogate(s) {
      var i :| 0 <= i < |s| && UnpairedAt(s, i);
      assert UnpairedAt(t, i - 1);
    }
    if HasUnpairedSurrogate(t) {
      var j :| 0 <= j < |t| && UnpairedAt(t, j);
      assert UnpairedAt(s, j + 1);
    }
  }

  /** Dropping a surrogate pair keeps the unpaired surrogates. */
  lemma UnpairedDropPair(s: JsString)
    requires |s| >= 2 && IsLeadSurrogate(s[0]) && IsTrailSurrogate(s[1])
    ensures HasUnpairedSurrogate(s) <==> HasUnpairedSurrogate(s[2..])
  {
    var t := s[2..];
    if HasUnpairedSurrogate(s) {
      var i :| 0 <= i < |s| && UnpairedAt(s, i);
      assert i >= 2;
      assert UnpairedAt(t, i - 2);
    }
    if HasUnpairedSurrogate(t) {
      var j :| 0 <= j < |t| && UnpairedAt(t, j);
      assert UnpairedAt(s, j + 2);
    }
  }

  /** A string has code points exactly when it has no unpaired surrogate. */
  lemma {:induction false} CodePointsDefined(s: JsString)
    ensures CodePoints(s).None? <==> HasUnpairedSurrogate(s)
    decreases |s|
  {
    if s == [] {
    } else if IsTrailSurrogate(s[0]) {
      assert UnpairedAt(s, 0);
    } else if IsLeadSurrogate(s[0]) {
      if |s| < 2 || !IsTrailSurrogate(s[1]) {
        assert UnpairedAt(s, 0);
      } else {
        CodePointsDefined(s[2..]);
        UnpairedDropPair(s);
      }
    } else {
      CodePointsDefined(s[1..]);
      UnpairedDropOne(s);
    }
  }

  /** `encodeURIComponent` throws URIError exactly when the string has an unpaired surrogate. */
  lemma EncodeFailsIff(s: JsString)
    ensures Encode(s).Err? <==> HasUnpairedSurrogate(s)
  {
    EncodeMatchesReference(s);
    CodePointsDefined(s);
  }
}

=== FILE: wrappers.dfy ===
/** Optional values and results with an error, as used throughout the model. */
module Wrappers {

  /** A value that may be absent (JavaScript `undefined`/`null`). */
  datatype Option<+T> = None | Some(value: T)

  /** The outcome of an operation that may throw. */
  datatype Result<+T, +E> = Ok(value: T) | Err(error: E)
}
